=== FILE: README.md ===
# SQL-Sheet in Dafny

SQL-Sheet is a small web page. It reads the first sheet of an `.xlsx`
workbook, turns the sheet into a list of headers and row records, and prints
SQL `INSERT` statements for those rows. This project models that core and
proves properties about it:

- **Sheet** (`sheet.dfy`): the grid that `sheet_to_json(..., {header: 1})`
  returns, as `seq<seq<Cell>>`. From it, the extraction builds the header
  list and one record per data row that has content, or fails in one of
  three ways.
- **SqlGen** (`sqlgen.dfy`): `generateSql` and its `formatValue`. That is,
  the two guards, NULL for blank cells, doubled single quotes, bare numbers,
  trimmed identifiers in backticks, and the two output layouts with their
  exact separators.
- **SqlRead** (`sqlread.dfy`): a reader for exactly the text `generateSql`
  writes. It is the generator's partner. Reading the output back recovers:
  - the trimmed table name;
  - the trimmed headers;
  - one statement per row (or one in batch mode);
  - every row's values in header order;
  - whether the tuples follow `VALUES` after a space (single-row mode) or on
    a new line indented by four spaces (batch mode).

  This pins down counts, separators and escaping at once.
- **Page** (`page.dfy`): the page's state hooks and what each event does to
  them:
  - starting an upload, the reader's success or failure;
  - editing the table name, toggling batch mode, generating.

  An invariant, `Consistent`, is kept by every event.
- **Uploader** (`uploader.dfy`): the drop and file-picker handlers' decision
  to ignore, forward or reject a file list.
- **SqlOutput** (`sqloutput.dfy`): the download file name, and the clipboard
  and download payloads.
- **Strings**, **Seqs**, **Wrappers**: `trim` over the full ECMAScript white
  space set, `endsWith`, decimal text of integers, `map`/`filter`/`join`, and
  `Option`/`Result`.
- **GenerateExamples** (`generate_examples.dfy`): a two-row dataset worked
  out exactly in both layouts.

### Column alignment

One might expect each value to come from the sheet column under its header.
`src/app/page.tsx:62-63` instead indexes each data row by the header's
position **after** blank header cells have been filtered out at
`src/app/page.tsx:53`. With header row `["A", "", "B"]` and data row
`[1, 99, 2]`, the page yields `{A: 1, B: 99}`, not `{A: 1, B: 2}`.

The model follows the code. `Sheet.BlankHeaderShiftsValues` proves that
exact outcome. `Sheet.HeaderColumns` is a reference the page does not
compute: the sheet column each header came from. `Sheet.HeadersFromColumns`
characterises it, and `Sheet.AlignedWithoutBlankHeaders` proves that the
post-filter position and the sheet column coincide whenever no header cell
is blank.

### Modelling choices

- A cell is `Text(s)`, `Num(n)` with `n` an integer, or `Absent`. `Absent`
  covers a hole in the row array, `undefined` and `null`.
- A row record is a `map<string, Cell>`. It is built by folding over the
  headers in order, so a repeated header name keeps its last occurrence's
  cell.
- The reader's two callbacks are events. They take effect only while an
  upload is loading, since a callback belongs to the upload in progress.
- The table-name field, the batch checkbox and the generate button are
  rendered only once data is loaded (`src/app/page.tsx:175`). Their events
  change nothing before then.

## Model

| member | source | states |
|---|---|---|
| Strings.Trim | src/app/page.tsx:53 | the result has no white space at either end; it is the slice of the input between an all-white-space prefix and an all-white-space suffix; it is empty exactly when the input is all white space |
| Strings.TrimOfTrimmed | src/app/page.tsx:124 | a string with no white space at either end is unchanged by `trim` |
| Strings.TrimIdempotent | src/app/page.tsx:124 | trimming an already trimmed header again (as the column list does) changes nothing |
| Strings.IntText | src/app/page.tsx:132 | a number's text is non-empty, has no surrounding white space, starts with `-` exactly when the number is negative, and is otherwise its digits without leading zeros (`0` for zero) |
| Strings.NatTextRoundTrip | src/app/page.tsx:132 | the decimal digits emitted for a number read back as that number |
| Seqs.FilterSelects | src/app/page.tsx:53-59 | `filter` keeps exactly the accepted elements, in their original order, each once, at strictly increasing positions |
| Seqs.FilterEmpty | src/app/page.tsx:53-56 | `filter` returns nothing exactly when no element is accepted |
| Sheet.NumberIsNotBlank | src/app/page.tsx:126 | a number is never blank, so it never becomes NULL and always gives a row content |
| Sheet.HeaderRow | src/app/page.tsx:53 | every header is non-empty and trimmed; there are none exactly when every cell of row 0 trims to nothing |
| Sheet.HeadersFromColumns | src/app/page.tsx:53 | the headers are the non-empty trimmed labels of row 0, in column order, each taken from a recorded column |
| Sheet.RowRecordKeys | src/app/page.tsx:61-64 | a row record has exactly one key per header name |
| Sheet.RowRecordValues | src/app/page.tsx:62-63 | the header at post-filter index i maps to the row's cell i (Absent past the row's end), and a repeated name keeps its last occurrence's cell |
| Sheet.Records | src/app/page.tsx:60-66 | one record per kept row, in order, each keyed by exactly the headers |
| Sheet.NoKeptRows | src/app/page.tsx:58-59 | no data row survives the filter exactly when none has a present, non-blank cell |
| Sheet.Extract | src/app/page.tsx:49-70 | fails with too few rows exactly when the grid has under two rows; fails for headers exactly when every header cell is blank; fails for data exactly when headers exist but no data row has content; on success, headers and rows are non-empty, rows are fewer than grid rows, and every record is keyed by the headers |
| Sheet.ExtractedRows | src/app/page.tsx:58-66 | on success, the records are exactly those of the data rows with content, in sheet order, the k-th built from the k-th kept row |
| Sheet.AlignedWithoutBlankHeaders | src/app/page.tsx:53-63 | with no blank header cell, header i is label i and comes from column i, so post-filter and sheet positions coincide |
| Sheet.BlankHeaderShiftsValues | src/app/page.tsx:53-64 | header row `["A", "", "B"]` over `[1, 99, 2]` extracts to `{A: 1, B: 99}` |
| Sheet.ContentBeyondHeadersKept | src/app/page.tsx:59-63 | a row whose cells under the headers are all blank but which has content further right passes the row filter, and its record maps every header to a blank cell, so every value becomes NULL |
| Sheet.ContentBeyondHeadersExample | src/app/page.tsx:59-63 | header row `["A"]` over data row `[<hole>, 5]` extracts to one record mapping `A` to nothing |
| SqlGen.DoubleQuotesLength | src/app/page.tsx:130 | escaping lengthens the text by exactly its number of single quotes |
| SqlGen.DoubleQuotesConcat | src/app/page.tsx:130 | escaping works character by character: it distributes over concatenation |
| SqlGen.NoQuotesUnchanged | src/app/page.tsx:130 | text without a single quote is not changed by escaping |
| SqlGen.PlainText | src/app/page.tsx:126-130 | non-empty text without surrounding white space or single quotes is emitted between single quotes unchanged |
| SqlGen.FormatValue | src/app/page.tsx:125-133 | the value is `NULL` exactly when the cell is absent or blank; other text is wrapped in single quotes; a number is its canonical decimal text: an optional minus sign and digits without leading zeros (`0` for zero) |
| SqlGen.QuotedText | src/app/page.tsx:129-130 | a non-blank text cell is its untrimmed, escaped text between single quotes |
| SqlGen.QuoteExample | src/app/page.tsx:130 | `O'Brien` is emitted as `'O''Brien'` |
| SqlGen.Generate | src/app/page.tsx:105-148 | refuses with an empty-dataset error exactly when there are no rows or no headers, and with a missing-name error exactly when data is present but the name is blank; otherwise the output is non-empty |
| SqlRead.QuotedRoundTrip | src/app/page.tsx:130 | the escaped text up to its closing quote reads back as the original text |
| SqlRead.NumberRoundTrip | src/app/page.tsx:132 | a number's bare text reads back as that number, sign included |
| SqlRead.LiteralRoundTrip | src/app/page.tsx:125-133 | every formatted value reads back as its cell, except that a blank text cell reads back as NULL |
| SqlRead.ValuesRoundTrip | src/app/page.tsx:139 | a value list joined by `, ` reads back as the cells in order, blanks as NULL |
| SqlRead.TupleRoundTrip | src/app/page.tsx:138-140 | one parenthesised tuple reads back as the row's values in header order |
| SqlRead.TuplesRoundTrip | src/app/page.tsx:138-141 | tuples joined by a comma, a line feed and four spaces read back as every row's values, in row order |
| SqlRead.IdentRoundTrip | src/app/page.tsx:124 | a backtick-quoted identifier reads back as the trimmed name when the name holds no backtick |
| SqlRead.ColumnsRoundTrip | src/app/page.tsx:124 | the column list reads back as the trimmed headers, in order |
| SqlRead.HeadRoundTrip | src/app/page.tsx:142-146 | `INSERT INTO` with the table and column list reads back as the trimmed table name and trimmed headers |
| SqlRead.SingleStatementRoundTrip | src/app/page.tsx:144-146 | a single-row statement reads back as one statement holding that row's values, its tuple after a single space |
| SqlRead.BatchStatementRoundTrip | src/app/page.tsx:137-142 | the batch statement reads back as one statement holding every row's values, its tuples starting on a new indented line |
| SqlRead.SingleScriptRoundTrip | src/app/page.tsx:144-147 | statements joined by single line feeds, with nothing after the last, read back as one statement per row, in row order |
| SqlRead.BatchScriptRoundTrip | src/app/page.tsx:137-142 | batch output reads back as exactly one statement |
| SqlRead.GenerateRoundTrip | src/app/page.tsx:124-148 | whatever generation accepts reads back completely: table, headers and every value, and every statement's tuples start on a new indented line exactly in batch mode |
| SqlRead.SingleModeStatements | src/app/page.tsx:144-147 | single-row mode emits exactly one statement per row, statement k holding row k's values under the trimmed headers, after a single space |
| SqlRead.BatchModeStatement | src/app/page.tsx:137-142 | batch mode emits one statement, its tuples on a new indented line, with one tuple per row, tuple k holding row k's value for each header, NULL for a blank or missing one |
| SqlRead.SingleExpectedAt | src/app/page.tsx:144-147 | the expected single-row reading has one statement per row, the k-th for row k |
| GenerateExamples.SingleRowExample | src/app/page.tsx:144-147 | rows `{id: 1, name: "Ann"}` and `{id: 2, name: null}` into table `t` give two statements on two lines, with `'Ann'` quoted, `1` and `2` bare, NULL unquoted and no trailing line feed |
| GenerateExamples.BatchExample | src/app/page.tsx:137-142 | the same rows in batch mode give one statement whose tuples are separated by a comma, a line feed and four spaces |
| GenerateExamples.BlankTableNameRefused | src/app/page.tsx:115-122 | a table name of three spaces is refused whatever the data |
| Uploader.OnDrop | src/components/excel-uploader.tsx:35-54 | a drop is ignored exactly when loading or the list is empty; otherwise the first file is forwarded exactly when it has the workbook MIME type or a `.xlsx` name, and rejected otherwise |
| Uploader.OnFileChange | src/components/excel-uploader.tsx:56-62 | the picker never rejects, and forwards the first file exactly when not loading and the list is non-empty |
| Uploader.PickerAcceptsMore | src/components/excel-uploader.tsx:43-60 | the two paths agree except that the picker forwards what the drop rejects; both ignore the same lists |
| Uploader.OnlyFirstFileMatters | src/components/excel-uploader.tsx:43-60 | two lists with the same first file get the same decision on both paths |
| Uploader.UpperCaseExtensionRejected | src/components/excel-uploader.tsx:44 | a dropped `BOOK.XLSX` of any other MIME type is rejected |
| Uploader.ExtensionSuffices | src/components/excel-uploader.tsx:44 | a dropped file named `*.xlsx` is forwarded whatever its MIME type |
| Uploader.MimeTypeSuffices | src/components/excel-uploader.tsx:44 | a dropped file of the workbook MIME type is forwarded whatever its name |
| SqlOutput.Stem | src/components/sql-output.tsx:40 | the stem is non-empty with no surrounding white space: the trimmed table name, or `data` when that is empty |
| SqlOutput.DownloadName | src/components/sql-output.tsx:40 | the name ends with `_inserts.sql`, and what precedes the suffix is the stem |
| SqlOutput.DownloadNameInjective | src/components/sql-output.tsx:40 | two table names give the same file name exactly when they have the same stem |
| SqlOutput.DownloadNameIgnoresPadding | src/components/sql-output.tsx:40 | white space around the table name never reaches the file name |
| SqlOutput.BlankName | src/components/sql-output.tsx:40 | every blank table name downloads as exactly the fallback stem `data` followed by the suffix |
| SqlOutput.BlankNameExample | src/components/sql-output.tsx:40 | the table name `"   "` downloads as exactly `data_inserts.sql` |
| SqlOutput.Exports | src/components/sql-output.tsx:18-40 | the clipboard text and the file content are the SQL verbatim, the file type is `application/sql`, and the name ends with `_inserts.sql` |
| Page.Initial | src/app/page.tsx:21-27 | the page starts with nothing loaded, no SQL, no file, not loading, single-row mode and a non-blank table name |
| Page.StartUpload | src/app/page.tsx:30-35 | starting an upload clears data, headers and SQL, shows the new file name and sets loading; table name and mode are kept |
| Page.ReadDone | src/app/page.tsx:38-91 | a successful extraction installs the headers of row 0 and exactly the extracted records, each keyed by those headers; an empty read or a failed extraction clears data, headers and file name; loading ends either way, and SQL, table name and mode are kept |
| Page.ReadFailed | src/app/page.tsx:93-101 | a read error ends loading and drops the file name and nothing else |
| Page.GenerateSql | src/app/page.tsx:105-150 | only the SQL can change; a refused generation changes nothing; otherwise the SQL becomes the non-empty generated text |
| Page.Step | src/app/page.tsx:175-198 | a drop or pick that the uploader forwards starts an upload of the first file, and one it does not forward changes nothing; the reader's callbacks apply `ReadDone` or `ReadFailed` only while loading; before data is loaded the name, batch and generate events change nothing, and afterwards they change exactly the table name, exactly the mode, or run `GenerateSql` |
| Page.StepPreserves | src/app/page.tsx:30-150 | every event keeps the page consistent: data and headers loaded together, headers trimmed and non-empty, records keyed by the headers, nothing loaded while reading, and any SQL shown is generated from the loaded data |
| Page.RunPreserves | src/app/page.tsx:30-150 | any run of events from a consistent state ends consistent |
| Page.ReachableConsistent | src/app/page.tsx:21-150 | every state reachable from the first render is consistent |
| Page.UploadThenGenerate | src/app/page.tsx:30-150 | picking a file, reading a sheet that extracts, and generating leaves exactly the SQL for the extracted data under the current name and mode |
| Page.RefusedKeepsSql | src/app/page.tsx:105-122 | a refused generation keeps whatever SQL was shown |
| Page.UploadClears | src/app/page.tsx:30-35 | a forwarded drop or pick always hides the previous SQL, data and headers, sets loading and shows the first file's name |

## Left out

- Workbook decoding and sheet selection (`XLSX.read`, `SheetNames[0]`, `sheet_to_json`, `src/app/page.tsx:44-47`) belong to a foreign library. The model starts from the grid they return.
- `Loaded(None)` stands for any failure before a grid exists: a missing read result (`src/app/page.tsx:40-43`), or `XLSX.read`/`sheet_to_json` throwing; all of them reach the same `catch` (`src/app/page.tsx:79-88`). `FileReader` itself, `readAsArrayBuffer` and the asynchronous timing of `onload`/`onerror` are I/O. They are left out beyond the rule that a callback only takes effect while loading.
- The `!jsonData` test (`src/app/page.tsx:49`): the grid is always a sequence, so only the length test is modelled.
- Numbers are integers. JavaScript's rendering of fractions, exponents, `NaN`, `Infinity` and `-0` is floating point and is not modelled.
- Boolean and date cells, which `sheet_to_json` can return, are not cell kinds here.
- A header cell that is an explicit `null` would print as `null` in the code. The model treats every absent header cell as a hole, which `map` and `filter` skip.
- Object keys with special meaning in JavaScript (such as `__proto__`) behave like any other key here.
- Backticks inside a table or header name are emitted unescaped, as in the code. The read-back lemmas require names without a backtick (`SqlRead.SafeIdentifiers`), because such a name makes the output ambiguous.
- Toasts and their wording, the clipboard promise and its failure toast, the "copied" timer, `Blob` and object-URL handling, and the DOM anchor are left out. `SqlOutput.Exports` keeps only the payloads.
- Drag highlighting, all JSX rendering, `src/components/table-preview.tsx` and `src/components/header.tsx` are presentation.
- White space is the fixed ECMAScript set (WhiteSpace and LineTerminator code points). Unicode normalisation is not modelled.

=== FILE: generate_examples.dfy ===
/**
 * A two-row example, worked out exactly in both layouts: headers `id` and
 * `name`, rows `{id: 1, name: "Ann"}` and `{id: 2, name: null}`, table `t`.
 */
module GenerateExamples {
  import opened Wrappers
  import opened Strings
  import opened Seqs
  import opened Sheet
  import opened SqlGen

  function AnnRow(): Row {
    map["id" := Num(1), "name" := Text("Ann")]
  }

  /** `name: null` is an absent cell. */
  function NullRow(): Row {
    map["id" := Num(2), "name" := Absent]
  }

  // ----- two-element lists -----

  lemma ColumnsTwo(a: string, b: string)
    ensures ColumnList([a, b]) == Ident(a) + ", " + Ident(b)
  {
    MapTwo(a, b, Ident);
    assert Join([Ident(a), Ident(b)], ", ") == Ident(a) + ", " + Ident(b);
  }

  lemma ValuesTwo(a: string, b: string, row: Row)
    ensures ValueList([a, b], row) == FormatValue(Lookup(row, a)) + ", " + FormatValue(Lookup(row, b))
  {
    var cells := RowCells([a, b], row);
    assert cells == [Lookup(row, a), Lookup(row, b)];
    MapTwo(cells[0], cells[1], FormatValue);
    assert Join([FormatValue(cells[0]), FormatValue(cells[1])], ", ") == FormatValue(cells[0]) + ", " + FormatValue(cells[1]);
  }

  // ----- identifiers and the shared head -----

  lemma ExampleColumns()
    ensures ColumnList(["id", "name"]) == "`id`, `name`"
  {
    ColumnsTwo("id", "name");
    IdentOfTrimmed("id");
    IdentOfTrimmed("name");
    assert "`id`" + ", " + "`name`" == "`id`, `name`";
  }

  lemma HeadPieces()
    ensures Head("t", ["id", "name"]) == "INSERT INTO " + "`t`" + " (" + "`id`, `name`" + ")"
  {
    IdentOfTrimmed("t");
    ExampleColumns();
  }

  lemma ExampleHead()
    ensures Head("t", ["id", "name"]) == "INSERT INTO `t` (`id`, `name`)"
  {
    HeadPieces();
    assert "INSERT INTO " + "`t`" + " (" + "`id`, `name`" + ")" == "INSERT INTO `t` (`id`, `name`)";
  }

  // ----- values -----

  lemma AnnValues()
    ensures ValueList(["id", "name"], AnnRow()) == "1" + ", " + "'Ann'"
  {
    assert "'" + "Ann" + "'" == "'Ann'";
    ValuesTwo("id", "name", AnnRow());
    assert Lookup(AnnRow(), "id") == Num(1) && Lookup(AnnRow(), "name") == Text("Ann");
    PlainText("Ann");
    assert FormatValue(Num(1)) == IntText(1) == "1";
  }

  lemma NullValues()
    ensures ValueList(["id", "name"], NullRow()) == "2" + ", " + "NULL"
  {
    ValuesTwo("id", "name", NullRow());
    assert Lookup(NullRow(), "id") == Num(2) && Lookup(NullRow(), "name") == Absent;
    assert FormatValue(Num(2)) == IntText(2) == "2";
  }

  lemma AnnTuple()
    ensures Tuple(["id", "name"], AnnRow()) == "(1, 'Ann')"
  {
    AnnValues();
    assert "(" + ("1" + ", " + "'Ann'") + ")" == "(1, 'Ann')";
  }

  lemma NullTuple()
    ensures Tuple(["id", "name"], NullRow()) == "(2, NULL)"
  {
    NullValues();
    assert "(" + ("2" + ", " + "NULL") + ")" == "(2, NULL)";
  }

  // ----- single-row mode -----

  lemma ExampleStatements()
    ensures SingleInsert("t", ["id", "name"], AnnRow()) == "INSERT INTO `t` (`id`, `name`) VALUES (1, 'Ann');"
    ensures SingleInsert("t", ["id", "name"], NullRow()) == "INSERT INTO `t` (`id`, `name`) VALUES (2, NULL);"
  {
    assert "INSERT INTO `t` (`id`, `name`)" + " VALUES " + "(1, 'Ann')" + ";"
      == "INSERT INTO `t` (`id`, `name`) VALUES (1, 'Ann');";
    assert "INSERT INTO `t` (`id`, `name`)" + " VALUES " + "(2, NULL)" + ";"
      == "INSERT INTO `t` (`id`, `name`) VALUES (2, NULL);";
    ExampleHead();
    AnnTuple();
    NullTuple();
  }

  /** Single-row mode: two statements separated by one line feed, nothing after the last. */
  lemma SingleRowExample()
    ensures Generate(["id", "name"], [AnnRow(), NullRow()], "t", false)
      == Success("INSERT INTO `t` (`id`, `name`) VALUES (1, 'Ann');" + "\n"
               + "INSERT INTO `t` (`id`, `name`) VALUES (2, NULL);")
  {
    var x, y := SingleInsert("t", ["id", "name"], AnnRow()), SingleInsert("t", ["id", "name"], NullRow());
    TrimOfTrimmed("t");
    assert Statements("t", ["id", "name"], [AnnRow(), NullRow()]) == [x, y];
    assert Join([x, y], "\n") == x + "\n" + y;
    ExampleStatements();
  }

  // ----- batch mode -----

  /** Batch mode: one statement whose two tuples are separated by a comma, a line feed and four spaces. */
  lemma BatchExample()
    ensures Generate(["id", "name"], [AnnRow(), NullRow()], "t", true)
      == Success("INSERT INTO `t` (`id`, `name`) VALUES\n    (1, 'Ann'),\n    (2, NULL);")
  {
    assert "INSERT INTO `t` (`id`, `name`)" + " VALUES\n    " + ("(1, 'Ann')" + ",\n    " + "(2, NULL)") + ";"
        == "INSERT INTO `t` (`id`, `name`) VALUES\n    (1, 'Ann'),\n    (2, NULL);";
    var x, y := Tuple(["id", "name"], AnnRow()), Tuple(["id", "name"], NullRow());
    TrimOfTrimmed("t");
    assert Tuples(["id", "name"], [AnnRow(), NullRow()]) == [x, y];
    assert Join([x, y], ",\n    ") == x + ",\n    " + y;
    ExampleHead();
    AnnTuple();
    NullTuple();
  }

  /** A table name of three spaces is refused whatever the data. */
  lemma BlankTableNameRefused(headers: seq<string>, rows: seq<Row>, batch: bool)
    requires |headers| > 0 && |rows| > 0
    ensures Generate(headers, rows, "   ", batch) == Failure(MissingTableName)
  {
    assert AllSpace("   ");
  }
}

=== FILE: page.dfy ===
/**
 * The page's state and how each event changes it: starting an upload, the
 * reader's outcome, editing the table name, toggling batch mode and
 * generating SQL.
 */
module Page {
  import opened Wrappers
  import opened Strings
  import opened Sheet
  import opened SqlGen
  import opened Uploader

  /** The page's `useState` hooks. */
  datatype PageState = PageState(
    data: seq<Row>,
    headers: seq<string>,
    sql: string,
    tableName: string,
    fileName: Option<string>,
    loading: bool,
    batch: bool)

  /** The state when the page first renders. */
  function Initial(): (st: PageState)
    ensures st.data == [] && st.headers == [] && st.sql == [] && st.fileName == None
    ensures !st.loading && !st.batch && !IsBlank(st.tableName)
  {
    var st := PageState([], [], [], "my_table", None, false, false);
    assert !IsSpace(st.tableName[0]);
    st
  }

  /**
   * `handleFileUpload` before the read: the previous dataset and SQL are
   * discarded and the new file name is shown while loading.
   */
  function StartUpload(st: PageState, file: FileInfo): (r: PageState)
    ensures r.loading && r.data == [] && r.headers == [] && r.sql == []
    ensures r.fileName == Some(file.name)
    ensures r.tableName == st.tableName && r.batch == st.batch
  {
    st.(loading := true, data := [], headers := [], sql := [], fileName := Some(file.name))
  }

  /**
   * `reader.onload`: `None` stands for any failure before a grid exists (a
   * missing read result, or the workbook library throwing). A successful
   * extraction installs headers and rows; any failure clears them and the
   * file name; loading ends either way.
   */
  function ReadDone(st: PageState, content: Option<Grid>): (r: PageState)
    ensures !r.loading
    ensures r.sql == st.sql && r.tableName == st.tableName && r.batch == st.batch
    ensures content.Some? && Extract(content.value).Success? ==>
      && r.headers == HeaderRow(content.value[0])
      && r.data == Extract(content.value).value.rows
      && |r.data| > 0
      && (forall k :: 0 <= k < |r.data| ==> r.data[k].Keys == set h | h in r.headers)
      && r.fileName == st.fileName
    ensures content.None? || Extract(content.value).Failure? ==>
      r.data == [] && r.headers == [] && r.fileName == None
  {
    if content.Some? && Extract(content.value).Success? then
      ExtractedRows(content.value);
      var d := Extract(content.value).value;
      st.(headers := d.headers, data := d.rows, loading := false)
    else
      st.(fileName := None, data := [], headers := [], loading := false)
  }

  /** `reader.onerror`: loading ends and the file name is dropped; nothing else changes. */
  function ReadFailed(st: PageState): (r: PageState)
    ensures !r.loading && r.fileName == None
    ensures r.(loading := st.loading, fileName := st.fileName) == st
  {
    st.(loading := false, fileName := None)
  }

  /** Whether `generateSql` refuses the current state and only shows a toast. */
  predicate Refused(st: PageState) {
    |st.data| == 0 || |st.headers| == 0 || IsBlank(st.tableName)
  }

  /**
   * `generateSql`: on refusal the state, SQL included, is left as it was;
   * otherwise only the SQL changes, to the generated text.
   */
  function GenerateSql(st: PageState): (r: PageState)
    ensures r.(sql := st.sql) == st
    ensures Refused(st) ==> r == st
    ensures !Refused(st) ==> r.sql != [] && Generate(st.headers, st.data, st.tableName, st.batch) == Success(r.sql)
  {
    match Generate(st.headers, st.data, st.tableName, st.batch)
    case Success(text) => st.(sql := text)
    case Failure(_) => st
  }

  /** The user-facing events, in the order the browser delivers them. */
  datatype Event =
    | Dropped(files: seq<FileInfo>)
    | Picked(files: seq<FileInfo>)
    | Loaded(content: Option<Grid>)
    | LoadError
    | TableNameEdited(name: string)
    | BatchToggled(on: bool)
    | GenerateClicked

  /**
   * One event. A dropped or picked file starts an upload when the widget
   * forwards it. The reader's callbacks belong to the upload in progress and
   * arrive only while one is loading. The table-name field, the batch box and
   * the generate button are rendered only once data is loaded.
   */
  function Step(st: PageState, e: Event): (r: PageState)
    ensures e.Dropped? && OnDrop(st.loading, e.files).Forwarded? ==> r == StartUpload(st, e.files[0])
    ensures e.Dropped? && !OnDrop(st.loading, e.files).Forwarded? ==> r == st
    ensures e.Picked? && OnFileChange(st.loading, e.files).Forwarded? ==> r == StartUpload(st, e.files[0])
    ensures e.Picked? && !OnFileChange(st.loading, e.files).Forwarded? ==> r == st
    ensures e.Loaded? ==> r == if st.loading then ReadDone(st, e.content) else st
    ensures e.LoadError? ==> r == if st.loading then ReadFailed(st) else st
    ensures (e.TableNameEdited? || e.BatchToggled? || e.GenerateClicked?) && |st.data| == 0 ==> r == st
    ensures e.TableNameEdited? && |st.data| > 0 ==> r == st.(tableName := e.name)
    ensures e.BatchToggled? && |st.data| > 0 ==> r == st.(batch := e.on)
    ensures e.GenerateClicked? && |st.data| > 0 ==> r == GenerateSql(st)
  {
    match e
    case Dropped(files) =>
      (match OnDrop(st.loading, files)
       case Forwarded(f) => StartUpload(st, f)
       case _ => st)
    case Picked(files) =>
      (match OnFileChange(st.loading, files)
       case Forwarded(f) => StartUpload(st, f)
       case _ => st)
    case Loaded(content) => if st.loading then ReadDone(st, content) else st
    case LoadError => if st.loading then ReadFailed(st) else st
    case TableNameEdited(name) => if |st.data| > 0 then st.(tableName := name) else st
    case BatchToggled(on) => if |st.data| > 0 then st.(batch := on) else st
    case GenerateClicked => if |st.data| > 0 then GenerateSql(st) else st
  }

  /** A sequence of events, applied in order. */
  function Run(st: PageState, events: seq<Event>): PageState
    decreases |events|
  {
    if |events| == 0 then st else Run(Step(st, events[0]), events[1..])
  }

  /**
   * What every reachable state satisfies: data and headers are loaded
   * together; headers are non-empty and trimmed; every row is keyed by
   * exactly the headers; a pending read has nothing loaded and a file name;
   * loaded data always has its file name; and any SQL shown is what
   * `generateSql` produces for the loaded data under some table name and mode.
   */
  ghost predicate Consistent(st: PageState) {
    && (|st.data| == 0 <==> |st.headers| == 0)
    && (forall i :: 0 <= i < |st.headers| ==> st.headers[i] != [] && IsTrimmed(st.headers[i]))
    && (forall k :: 0 <= k < |st.data| ==> st.data[k].Keys == set h | h in st.headers)
    && (st.loading ==> st.data == [] && st.headers == [] && st.sql == [] && st.fileName.Some?)
    && (|st.data| > 0 ==> st.fileName.Some?)
    && (st.sql != [] ==> exists t, b :: Generate(st.headers, st.data, t, b) == Success(st.sql))
  }

  lemma InitialConsistent()
    ensures Consistent(Initial())
  {
  }

  /** Every event keeps the page consistent. */
  lemma StepPreserves(st: PageState, e: Event)
    requires Consistent(st)
    ensures Consistent(Step(st, e))
  {
    var r := Step(st, e);
    match e {
      case Loaded(content) =>
        if st.loading && content.Some? && Extract(content.value).Success? {
          var d := Extract(content.value).value;
          LoadedStep(st, content.value);
          assert r.headers == d.headers && r.data == d.rows && r.sql == [];
        }
      case GenerateClicked =>
        if |st.data| > 0 && !Refused(st) {
          assert Generate(r.headers, r.data, st.tableName, st.batch) == Success(r.sql);
        }
      case TableNameEdited(_) =>
        if st.sql != [] {
          var t, b :| Generate(st.headers, st.data, t, b) == Success(st.sql);
          assert Generate(r.headers, r.data, t, b) == Success(r.sql);
        }
      case BatchToggled(_) =>
        if st.sql != [] {
          var t, b :| Generate(st.headers, st.data, t, b) == Success(st.sql);
          assert Generate(r.headers, r.data, t, b) == Success(r.sql);
        }
      case _ =>
    }
  }

  /** Any run of events from a consistent state ends in a consistent state. */
  lemma {:induction false} RunPreserves(st: PageState, events: seq<Event>)
    requires Consistent(st)
    ensures Consistent(Run(st, events))
    decreases |events|
  {
    if |events| > 0 {
      StepPreserves(st, events[0]);
      RunPreserves(Step(st, events[0]), events[1..]);
    }
  }

  /** Every state the page can reach from its first render is consistent. */
  lemma ReachableConsistent(events: seq<Event>)
    ensures Consistent(Run(Initial(), events))
  {
    InitialConsistent();
    RunPreserves(Initial(), events);
  }

  /**
   * Picking a file, reading a sheet that extracts, and clicking generate
   * leaves exactly the SQL for the extracted data under the current table
   * name and mode, provided the name is not blank.
   */
  lemma UploadThenGenerate(st: PageState, file: FileInfo, grid: Grid)
    requires !st.loading && !IsBlank(st.tableName)
    requires Extract(grid).Success?
    ensures Run(st, [Picked([file]), Loaded(Some(grid)), GenerateClicked]).sql
         == Generate(Extract(grid).value.headers, Extract(grid).value.rows, st.tableName, st.batch).value
  {
    var s1 := StartUpload(st, file);
    var s2 := ReadDone(s1, Some(grid));
    PickStep(st, file);
    LoadedStep(s1, grid);
    GenerateStep(s2);
    RunThree(st, Picked([file]), Loaded(Some(grid)), GenerateClicked);
  }

  lemma PickStep(st: PageState, file: FileInfo)
    requires !st.loading
    ensures Step(st, Picked([file])) == StartUpload(st, file)
  {
  }

  lemma LoadedStep(st: PageState, grid: Grid)
    requires st.loading && Extract(grid).Success?
    ensures Step(st, Loaded(Some(grid))) == ReadDone(st, Some(grid))
    ensures ReadDone(st, Some(grid)).headers == Extract(grid).value.headers
    ensures ReadDone(st, Some(grid)).data == Extract(grid).value.rows
  {
  }

  lemma GenerateStep(st: PageState)
    requires |st.data| > 0
    ensures Step(st, GenerateClicked) == GenerateSql(st)
  {
  }

  /** Three events in a row. */
  lemma RunThree(st: PageState, a: Event, b: Event, c: Event)
    ensures Run(st, [a, b, c]) == Step(Step(Step(st, a), b), c)
  {
    var s1, s2 := Step(st, a), Step(Step(st, a), b);
    assert [a, b, c][1..] == [b, c];
    assert [b, c][1..] == [c];
    assert [c][1..] == [];
    assert Run(st, [a, b, c]) == Run(s1, [b, c]);
    assert Run(s1, [b, c]) == Run(s2, [c]);
    assert Run(s2, [c]) == Run(Step(s2, c), []);
  }

  /** A refused generation keeps whatever SQL was shown before. */
  lemma RefusedKeepsSql(st: PageState)
    requires Refused(st)
    ensures Step(st, GenerateClicked).sql == st.sql
  {
  }

  /**
   * Starting a new upload, by a forwarded drop or a forwarded pick, always
   * hides the previous SQL and dataset and shows the first file's name.
   */
  lemma UploadClears(st: PageState, e: Event)
    requires || (e.Dropped? && OnDrop(st.loading, e.files).Forwarded?)
             || (e.Picked? && OnFileChange(st.loading, e.files).Forwarded?)
    ensures Step(st, e).sql == [] && Step(st, e).data == [] && Step(st, e).headers == []
    ensures Step(st, e).loading && Step(st, e).fileName == Some(e.files[0].name)
  {
  }
}

=== FILE: seqs.dfy ===
/** The array operations the page uses: `map`, `filter` and `join`. */
module Seqs {

  /** `s.map(f)`. */
  function Map<A, B>(s: seq<A>, f: A -> B): (r: seq<B>)
    ensures |r| == |s|
    ensures forall i :: 0 <= i < |s| ==> r[i] == f(s[i])
  {
    seq(|s|, i requires 0 <= i < |s| => f(s[i]))
  }

  /** `s.filter(keep)`: the elements `keep` accepts, in their original order. */
  function Filter<T>(s: seq<T>, keep: T -> bool): (r: seq<T>)
    ensures |r| <= |s|
    ensures forall k :: 0 <= k < |r| ==> keep(r[k])
    decreases |s|
  {
    if |s| == 0 then []
    else if keep(s[0]) then [s[0]] + Filter(s[1..], keep)
    else Filter(s[1..], keep)
  }

  /** The first element of a mapped sequence, then the rest mapped. */
  lemma MapCons<A, B>(s: seq<A>, f: A -> B)
    requires |s| > 0
    ensures Map(s, f) == [f(s[0])] + Map(s[1..], f)
  {
    assert Map(s, f)[1..] == Map(s[1..], f);
  }

  /** `Filter` keeps nothing exactly when `keep` accepts no element. */
  lemma {:induction false} FilterEmpty<T>(s: seq<T>, keep: T -> bool)
    ensures |Filter(s, keep)| == 0 <==> forall i :: 0 <= i < |s| ==> !keep(s[i])
    decreases |s|
  {
    if |s| > 0 {
      FilterEmpty(s[1..], keep);
      assert forall i :: 1 <= i < |s| ==> s[i] == s[1..][i - 1];
    }
  }

  /** Every element `Filter` keeps is an element of `s`. */
  lemma {:induction false} FilterSubset<T>(s: seq<T>, keep: T -> bool)
    ensures forall k :: 0 <= k < |Filter(s, keep)| ==> Filter(s, keep)[k] in s
    decreases |s|
  {
    if |s| > 0 {
      FilterSubset(s[1..], keep);
      assert forall x :: x in s[1..] ==> x in s;
    }
  }

  /** The positions, counted from `base`, of the elements of `s` that `keep` accepts. */
  function FilterIndices<T>(s: seq<T>, keep: T -> bool, base: nat): seq<nat>
    decreases |s|
  {
    if |s| == 0 then []
    else if keep(s[0]) then [base] + FilterIndices(s[1..], keep, base + 1)
    else FilterIndices(s[1..], keep, base + 1)
  }

  /**
   * `r` is the subsequence of `s` at the strictly increasing positions `idx`,
   * and those positions are exactly the ones whose element `keep` accepts.
   * This pins `r` down completely: order, multiplicity and contents.
   */
  ghost predicate Selects<T>(r: seq<T>, s: seq<T>, keep: T -> bool, idx: seq<nat>) {
    && |idx| == |r|
    && (forall k :: 0 <= k < |idx| ==> idx[k] < |s| && r[k] == s[idx[k]])
    && (forall k, l :: 0 <= k < l < |idx| ==> idx[k] < idx[l])
    && (forall j :: 0 <= j < |s| ==> (keep(s[j]) <==> j in idx))
  }

  /** `Filter` keeps exactly the accepted elements, in order, each once. */
  lemma FilterSelects<T>(s: seq<T>, keep: T -> bool)
    ensures Selects(Filter(s, keep), s, keep, FilterIndices(s, keep, 0))
  {
    IndicesPick(s, keep, 0);
    IndicesIncrease(s, keep, 0);
    IndicesComplete(s, keep, 0);
  }

  /** The k-th kept element sits at the k-th recorded position. */
  lemma {:induction false} IndicesPick<T>(s: seq<T>, keep: T -> bool, base: nat)
    ensures |FilterIndices(s, keep, base)| == |Filter(s, keep)|
    ensures forall k :: 0 <= k < |Filter(s, keep)| ==>
      base <= FilterIndices(s, keep, base)[k] < base + |s| &&
      Filter(s, keep)[k] == s[FilterIndices(s, keep, base)[k] - base]
    decreases |s|
  {
    if |s| > 0 {
      IndicesPick(s[1..], keep, base + 1);
      var r, idx := Filter(s[1..], keep), FilterIndices(s[1..], keep, base + 1);
      assert forall k :: 0 <= k < |r| ==> r[k] == s[idx[k] - base];
    }
  }

  /** Recorded positions lie within `s`, counted from `base`. */
  lemma {:induction false} IndicesBounds<T>(s: seq<T>, keep: T -> bool, base: nat)
    ensures forall k :: 0 <= k < |FilterIndices(s, keep, base)| ==>
      base <= FilterIndices(s, keep, base)[k] < base + |s|
    decreases |s|
  {
    if |s| > 0 {
      IndicesBounds(s[1..], keep, base + 1);
    }
  }

  /** Recorded positions strictly increase. */
  lemma {:induction false} IndicesIncrease<T>(s: seq<T>, keep: T -> bool, base: nat)
    ensures forall k, l :: 0 <= k < l < |FilterIndices(s, keep, base)| ==>
      FilterIndices(s, keep, base)[k] < FilterIndices(s, keep, base)[l]
    decreases |s|
  {
    if |s| > 0 {
      IndicesBounds(s[1..], keep, base + 1);
      IndicesIncrease(s[1..], keep, base + 1);
    }
  }

  /** A position is recorded exactly when `keep` accepts the element there. */
  lemma {:induction false} IndicesComplete<T>(s: seq<T>, keep: T -> bool, base: nat)
    ensures forall j :: 0 <= j < |s| ==> (keep(s[j]) <==> base + j in FilterIndices(s, keep, base))
    decreases |s|
  {
    if |s| > 0 {
      var idx := FilterIndices(s, keep, base);
      var rest := FilterIndices(s[1..], keep, base + 1);
      IndicesBounds(s[1..], keep, base + 1);
      IndicesComplete(s[1..], keep, base + 1);
      assert base !in rest;
      forall j | 0 <= j < |s|
        ensures keep(s[j]) <==> base + j in idx
      {
        if j > 0 {
          assert s[j] == s[1..][j - 1];
          assert base + j in idx <==> base + 1 + (j - 1) in rest;
        }
      }
    }
  }

  /** When `keep` accepts everything, `Filter` is the identity and position k is recorded as k. */
  lemma {:induction false} FilterKeepsAll<T>(s: seq<T>, keep: T -> bool, base: nat)
    requires forall i :: 0 <= i < |s| ==> keep(s[i])
    ensures Filter(s, keep) == s
    ensures |FilterIndices(s, keep, base)| == |s|
    ensures forall k :: 0 <= k < |s| ==> FilterIndices(s, keep, base)[k] == base + k
    decreases |s|
  {
    if |s| > 0 {
      assert forall i :: 0 <= i < |s[1..]| ==> keep(s[1..][i]) by {
        assert forall i :: 0 <= i < |s[1..]| ==> s[1..][i] == s[i + 1];
      }
      FilterKeepsAll(s[1..], keep, base + 1);
      assert s == [s[0]] + s[1..];
    }
  }

  /** `parts.join(sep)`. */
  function Join(parts: seq<string>, sep: string): string
    decreases |parts|
  {
    if |parts| == 0 then []
    else if |parts| == 1 then parts[0]
    else parts[0] + sep + Join(parts[1..], sep)
  }

  /** A join of two or more parts, and whatever follows it, regrouped after the first part. */
  lemma JoinCons(parts: seq<string>, sep: string, rest: string)
    requires |parts| > 1
    ensures Join(parts, sep) + rest == parts[0] + (sep + (Join(parts[1..], sep) + rest))
  {
    var j := Join(parts[1..], sep);
    assert Join(parts, sep) == parts[0] + sep + j;
    assert parts[0] + sep + j + rest == parts[0] + (sep + (j + rest));
  }

  /** `map` over a two-element list. */
  lemma MapTwo<A, B>(x: A, y: A, f: A -> B)
    ensures Map([x, y], f) == [f(x), f(y)]
  {
  }

  /** `map` over a three-element list. */
  lemma MapThree<A, B>(x: A, y: A, z: A, f: A -> B)
    ensures Map([x, y, z], f) == [f(x), f(y), f(z)]
  {
  }

  /** `filter` keeps a one-element list whose element it accepts. */
  lemma FilterOne<T>(x: T, keep: T -> bool)
    requires keep(x)
    ensures Filter([x], keep) == [x]
  {
    assert [x][1..] == [];
  }
}

=== FILE: sheet.dfy ===
/**
 * The first sheet as `sheet_to_json(worksheet, {header: 1})` hands it to the
 * page, and the extraction of a header list and row records from it
 * (`handleFileUpload`, after the workbook has been decoded).
 */
module Sheet {
  import opened Wrappers
  import opened Strings
  import opened Seqs

  /**
   * A raw cell: a string, a number, or nothing (a hole in the row array,
   * `undefined` or `null`).
   */
  datatype Cell = Text(s: string) | Num(n: int) | Absent

  /** Rows of raw cells in sheet order; row 0 is the header row. */
  type Grid = seq<seq<Cell>>

  /** One data row as the page stores it: a record from header name to cell. */
  type Row = map<string, Cell>

  /** What a successful extraction yields. */
  datatype Dataset = Dataset(headers: seq<string>, rows: seq<Row>)

  /** Why an extraction was abandoned; each case is a thrown `Error`. */
  datatype ExtractError =
    | InsufficientRows   // fewer than two rows in the sheet
    | NoHeaders          // every header cell is blank
    | NoDataRows         // no data row has any content

  /** `String(cell)` for a present cell; never consulted for an absent one. */
  function CellText(c: Cell): string {
    match c
    case Text(s) => s
    case Num(n) => IntText(n)
    case Absent => []
  }

  /**
   * `cell === null || cell === undefined || String(cell).trim() === ''`: the
   * test both the row filter and `formatValue` use.
   */
  predicate IsBlankCell(c: Cell) {
    c.Absent? || IsBlank(CellText(c))
  }

  /** A number is never blank: its decimal text has no white space and is not empty. */
  lemma NumberIsNotBlank(n: int)
    ensures !IsBlankCell(Num(n))
  {
    TrimOfTrimmed(IntText(n));
  }

  lemma NumbersAreNotBlank()
    ensures forall n: int :: !IsBlankCell(Num(n))
  {
    forall n: int {
      NumberIsNotBlank(n);
    }
  }

  /**
   * `String(header).trim()` for one cell of the header row. Holes are skipped
   * by `map` and `filter`; giving them the empty label, which the filter
   * drops, has the same effect.
   */
  function HeaderLabel(c: Cell): string {
    if c.Absent? then [] else Trim(CellText(c))
  }

  predicate NonEmpty(h: string) {
    h != []
  }

  /** `jsonData[0].map(h => String(h).trim()).filter(h => h)`. */
  function HeaderRow(cells: seq<Cell>): (hs: seq<string>)
    ensures forall k :: 0 <= k < |hs| ==> hs[k] != [] && IsTrimmed(hs[k])
    ensures |hs| == 0 <==> forall i :: 0 <= i < |cells| ==> HeaderLabel(cells[i]) == []
  {
    var labels := Map(cells, HeaderLabel);
    FilterEmpty(labels, NonEmpty);
    FilterSubset(labels, NonEmpty);
    Filter(labels, NonEmpty)
  }

  /**
   * The original column of each header: the positions in the header row whose
   * label survives the filter. The page never computes them (the filter drops
   * the positions); they serve as a reference for where each header sits in
   * the sheet (see `RowRecord` and `AlignedWithoutBlankHeaders`).
   */
  function HeaderColumns(cells: seq<Cell>): seq<nat> {
    FilterIndices(Map(cells, HeaderLabel), NonEmpty, 0)
  }

  /** `row[index] !== undefined ? row[index] : null`. */
  function CellAt(row: seq<Cell>, i: nat): Cell {
    if i < |row| then row[i] else Absent
  }

  /** No later header has the same name as the one at `i`. */
  predicate IsLastOccurrence(headers: seq<string>, i: nat)
    requires i < |headers|
  {
    forall j :: i < j < |headers| ==> headers[j] != headers[i]
  }

  /**
   * The record built by `headers.forEach((header, index) => rowData[header] = ...)`:
   * later headers overwrite earlier ones of the same name.
   */
  function RowRecord(headers: seq<string>, row: seq<Cell>): Row
    decreases |headers|
  {
    if |headers| == 0 then map[]
    else
      var n := |headers| - 1;
      RowRecord(headers[..n], row)[headers[n] := CellAt(row, n)]
  }

  /** A row record has exactly one key per header name. */
  lemma {:induction false} RowRecordKeys(headers: seq<string>, row: seq<Cell>)
    ensures RowRecord(headers, row).Keys == set h | h in headers
    decreases |headers|
  {
    if |headers| > 0 {
      var n := |headers| - 1;
      RowRecordKeys(headers[..n], row);
      assert headers == headers[..n] + [headers[n]];
      assert (set h | h in headers) == (set h | h in headers[..n]) + {headers[n]};
    }
  }

  /**
   * Header `i` takes the cell at position `i` of the row, where `i` counts
   * surviving headers, not sheet columns; past the row's end it takes
   * `Absent`. A header name that occurs twice keeps the cell of its last
   * occurrence.
   */
  lemma {:induction false} RowRecordValues(headers: seq<string>, row: seq<Cell>)
    ensures forall i :: 0 <= i < |headers| && IsLastOccurrence(headers, i) ==>
      headers[i] in RowRecord(headers, row) && RowRecord(headers, row)[headers[i]] == CellAt(row, i)
    decreases |headers|
  {
    if |headers| > 0 {
      var n := |headers| - 1;
      var prefix := headers[..n];
      RowRecordValues(prefix, row);
      forall i | 0 <= i < n && IsLastOccurrence(headers, i)
        ensures IsLastOccurrence(prefix, i) && headers[i] != headers[n]
      {
      }
    }
  }

  /** `fileDataRows.map(row => ...)`: one record per kept row, each keyed by the headers. */
  function Records(headers: seq<string>, rows: seq<seq<Cell>>): (rs: seq<Row>)
    ensures |rs| == |rows|
    ensures forall k :: 0 <= k < |rs| ==> rs[k] == RowRecord(headers, rows[k])
    ensures forall k :: 0 <= k < |rs| ==> rs[k].Keys == set h | h in headers
  {
    var rs := Map(rows, row => RowRecord(headers, row));
    assert forall k :: 0 <= k < |rs| ==> rs[k].Keys == set h | h in headers by {
      forall k | 0 <= k < |rs| {
        RowRecordKeys(headers, rows[k]);
      }
    }
    rs
  }

  /** `row.some(cell => cell !== null && cell !== undefined && String(cell).trim() !== '')`. */
  predicate HasContent(row: seq<Cell>) {
    exists i | 0 <= i < |row| :: !IsBlankCell(row[i])
  }

  /** The data rows that survive the blank-row filter, in sheet order. */
  function KeptRows(grid: Grid): seq<seq<Cell>>
    requires |grid| > 0
  {
    Filter(grid[1..], HasContent)
  }

  /** No data row survives the filter exactly when none has content. */
  lemma NoKeptRows(grid: Grid)
    requires |grid| > 0
    ensures |KeptRows(grid)| == 0 <==> forall j :: 1 <= j < |grid| ==> !HasContent(grid[j])
  {
    var kept := KeptRows(grid);
    FilterSelects(grid[1..], HasContent);
    var idx := FilterIndices(grid[1..], HasContent, 0);
    if |kept| > 0 {
      assert HasContent(grid[1 + idx[0]]) by {
        assert grid[1..][idx[0]] == grid[1 + idx[0]];
      }
    } else {
      assert forall j :: 1 <= j < |grid| ==> grid[j] == grid[1..][j - 1];
    }
  }

  /**
   * `handleFileUpload`'s extraction: the header list from row 0 and one
   * record per data row that has content, or the first check that fails.
   */
  function Extract(grid: Grid): (r: Result<Dataset, ExtractError>)
    ensures r == Failure(InsufficientRows) <==> |grid| < 2
    ensures r == Failure(NoHeaders) <==>
      |grid| >= 2 && forall i :: 0 <= i < |grid[0]| ==> HeaderLabel(grid[0][i]) == []
    ensures r == Failure(NoDataRows) <==>
      && |grid| >= 2
      && (exists i :: 0 <= i < |grid[0]| && HeaderLabel(grid[0][i]) != [])
      && (forall j :: 1 <= j < |grid| ==> !HasContent(grid[j]))
    ensures r.Success? ==>
      && |r.value.headers| > 0
      && |r.value.rows| > 0
      && |r.value.rows| < |grid|
      && (forall k :: 0 <= k < |r.value.headers| ==> r.value.headers[k] != [] && IsTrimmed(r.value.headers[k]))
      && (forall k :: 0 <= k < |r.value.rows| ==> r.value.rows[k].Keys == set h | h in r.value.headers)
  {
    if |grid| < 2 then Failure(InsufficientRows)
    else
      var headers := HeaderRow(grid[0]);
      if |headers| == 0 then Failure(NoHeaders)
      else
        var kept := KeptRows(grid);
        NoKeptRows(grid);
        if |kept| == 0 then Failure(NoDataRows)
        else Success(Dataset(headers, Records(headers, kept)))
  }

  /**
   * The headers are the non-empty trimmed labels of row 0 in column order,
   * and `HeaderColumns` records the sheet column each one came from.
   */
  lemma HeadersFromColumns(cells: seq<Cell>)
    ensures Selects(HeaderRow(cells), Map(cells, HeaderLabel), NonEmpty, HeaderColumns(cells))
    ensures forall k :: 0 <= k < |HeaderRow(cells)| ==>
      HeaderColumns(cells)[k] < |cells| && HeaderRow(cells)[k] == HeaderLabel(cells[HeaderColumns(cells)[k]])
  {
    FilterSelects(Map(cells, HeaderLabel), NonEmpty);
  }

  /**
   * A successful extraction keeps exactly the data rows with content, in
   * sheet order, and turns the k-th of them into its record.
   */
  lemma ExtractedRows(grid: Grid)
    requires Extract(grid).Success?
    ensures var d := Extract(grid).value;
      var idx := FilterIndices(grid[1..], HasContent, 0);
      && d.headers == HeaderRow(grid[0])
      && Selects(KeptRows(grid), grid[1..], HasContent, idx)
      && |d.rows| == |idx|
      && forall k :: 0 <= k < |d.rows| ==> d.rows[k] == RowRecord(d.headers, grid[1 + idx[k]])
  {
    var kept := KeptRows(grid);
    var idx := FilterIndices(grid[1..], HasContent, 0);
    FilterSelects(grid[1..], HasContent);
    var d := Extract(grid).value;
    assert d.rows == Records(d.headers, kept);
    forall k | 0 <= k < |d.rows|
      ensures d.rows[k] == RowRecord(d.headers, grid[1 + idx[k]])
    {
      assert kept[k] == grid[1..][idx[k]] == grid[1 + idx[k]];
    }
  }

  /**
   * When no cell of the header row is blank, the post-filter index the page
   * uses coincides with the sheet column: every value comes from the column
   * under its header.
   */
  lemma AlignedWithoutBlankHeaders(grid: Grid)
    requires Extract(grid).Success?
    requires forall i :: 0 <= i < |grid[0]| ==> HeaderLabel(grid[0][i]) != []
    ensures var d := Extract(grid).value;
      var cols := HeaderColumns(grid[0]);
      && |cols| == |d.headers| == |grid[0]|
      && forall i :: 0 <= i < |d.headers| ==> cols[i] == i && d.headers[i] == HeaderLabel(grid[0][i])
  {
    var labels := Map(grid[0], HeaderLabel);
    FilterKeepsAll(labels, NonEmpty, 0);
  }

  /**
   * The page as written: with header row `["A", "", "B"]` and data row
   * `[1, 99, 2]`, header `B` takes 99 (the cell at its post-filter index 1),
   * not 2 (the cell in its own column).
   */
  lemma BlankHeaderShiftsValues()
    ensures Extract([[Text("A"), Text(""), Text("B")], [Num(1), Num(99), Num(2)]])
      == Success(Dataset(["A", "B"], [map["A" := Num(1), "B" := Num(99)]]))
  {
    var grid := [[Text("A"), Text(""), Text("B")], [Num(1), Num(99), Num(2)]];
    var hs := ["A", "B"];
    ExampleHeaders();
    ExampleKeptRows();
    ExampleRecord();
    ExtractWhenBothPresent(grid, hs, [grid[1]]);
  }

  /** With headers and kept rows in hand, extraction succeeds with their records. */
  lemma ExtractWhenBothPresent(grid: Grid, hs: seq<string>, kept: seq<seq<Cell>>)
    requires |grid| >= 2 && HeaderRow(grid[0]) == hs && |hs| > 0
    requires KeptRows(grid) == kept && |kept| == 1
    ensures Extract(grid) == Success(Dataset(hs, [RowRecord(hs, kept[0])]))
  {
    var rs := Records(hs, kept);
    assert rs == [RowRecord(hs, kept[0])];
  }

  /** The single data row `[1, 99, 2]` has content and is kept. */
  lemma ExampleKeptRows()
    ensures KeptRows([[Text("A"), Text(""), Text("B")], [Num(1), Num(99), Num(2)]])
      == [[Num(1), Num(99), Num(2)]]
  {
    var grid := [[Text("A"), Text(""), Text("B")], [Num(1), Num(99), Num(2)]];
    assert grid[1..] == [[Num(1), Num(99), Num(2)]];
    ExampleRowHasContent();
    FilterOne([Num(1), Num(99), Num(2)], HasContent);
  }

  lemma ExampleRowHasContent()
    ensures HasContent([Num(1), Num(99), Num(2)])
  {
    var row := [Num(1), Num(99), Num(2)];
    NumberIsNotBlank(1);
    assert !IsBlankCell(row[0]);
  }

  /** Headers `["A", "B"]` over `[1, 99, 2]` take the first two cells. */
  lemma ExampleRecord()
    ensures RowRecord(["A", "B"], [Num(1), Num(99), Num(2)]) == map["A" := Num(1), "B" := Num(99)]
  {
    var hs := ["A", "B"];
    assert hs[..1] == ["A"];
    assert ["A"][..0] == [];
  }

  /** The header row `["A", "", "B"]` yields the headers `["A", "B"]`. */
  lemma ExampleHeaders()
    ensures HeaderRow([Text("A"), Text(""), Text("B")]) == ["A", "B"]
  {
    ExampleLabels();
    ExampleLabelFilter();
  }

  lemma ExampleLabels()
    ensures Map([Text("A"), Text(""), Text("B")], HeaderLabel) == ["A", "", "B"]
  {
    MapThree(Text("A"), Text(""), Text("B"), HeaderLabel);
    LetterLabel('A');
    LetterLabel('B');
    assert HeaderLabel(Text("")) == [];
  }

  lemma ExampleLabelFilter()
    ensures Filter(["A", "", "B"], NonEmpty) == ["A", "B"]
  {
    var labels: seq<string> := ["A", "", "B"];
    var l1, l2 := labels[1..], labels[1..][1..];
    assert l1 == ["", "B"] && l2 == ["B"] && l2[1..] == [];
    assert Filter(l2, NonEmpty) == ["B"];
    assert Filter(l1, NonEmpty) == ["B"];
  }

  /** A one-letter header cell is its own label. */
  lemma LetterLabel(c: char)
    requires 'A' <= c <= 'Z'
    ensures HeaderLabel(Text([c])) == [c]
  {
    TrimOfTrimmed([c]);
  }

  /**
   * A row whose cells under the headers are all blank, but which has content
   * further right, passes the row filter; its record maps every header to a
   * blank cell (which formats as NULL).
   */
  lemma {:induction false} ContentBeyondHeadersKept(headers: seq<string>, row: seq<Cell>, j: nat)
    requires |headers| <= j < |row| && !IsBlankCell(row[j])
    requires forall i :: 0 <= i < |headers| && i < |row| ==> IsBlankCell(row[i])
    ensures HasContent(row)
    ensures forall h :: h in RowRecord(headers, row) ==> IsBlankCell(RowRecord(headers, row)[h])
  {
    RecordOfBlankCells(headers, row);
  }

  /** When every cell under the headers is blank, so is every value of the record. */
  lemma {:induction false} RecordOfBlankCells(headers: seq<string>, row: seq<Cell>)
    requires forall i :: 0 <= i < |headers| && i < |row| ==> IsBlankCell(row[i])
    ensures forall h :: h in RowRecord(headers, row) ==> IsBlankCell(RowRecord(headers, row)[h])
    decreases |headers|
  {
    if |headers| > 0 {
      var n := |headers| - 1;
      RecordOfBlankCells(headers[..n], row);
      assert IsBlankCell(CellAt(row, n));
    }
  }

  /**
   * The grid-level instance: with header row `["A"]` and data row
   * `[<hole>, 5]`, the row is kept and maps `A` to nothing.
   */
  lemma ContentBeyondHeadersExample()
    ensures Extract([[Text("A")], [Absent, Num(5)]]) == Success(Dataset(["A"], [map["A" := Absent]]))
  {
    var grid := [[Text("A")], [Absent, Num(5)]];
    OneHeader();
    BeyondKeptRows();
    BeyondRecord();
    ExtractWhenBothPresent(grid, ["A"], [grid[1]]);
  }

  lemma OneHeader()
    ensures HeaderRow([Text("A")]) == ["A"]
  {
    LetterLabel('A');
    assert Map([Text("A")], HeaderLabel) == ["A"];
    FilterOne("A", NonEmpty);
  }

  lemma BeyondKeptRows()
    ensures KeptRows([[Text("A")], [Absent, Num(5)]]) == [[Absent, Num(5)]]
  {
    var grid := [[Text("A")], [Absent, Num(5)]];
    assert grid[1..] == [[Absent, Num(5)]];
    BeyondRowHasContent();
    FilterOne([Absent, Num(5)], HasContent);
  }

  lemma BeyondRowHasContent()
    ensures HasContent([Absent, Num(5)])
  {
    var row := [Absent, Num(5)];
    NumberIsNotBlank(5);
    assert !IsBlankCell(row[1]);
  }

  lemma BeyondRecord()
    ensures RowRecord(["A"], [Absent, Num(5)]) == map["A" := Absent]
  {
    assert ["A"][..0] == [];
  }
}

=== FILE: sqlgen.dfy ===
/**
 * `generateSql`: the guards, `formatValue`, identifier quoting and the two
 * output layouts (one statement per row, or one batch statement).
 */
module SqlGen {
  import opened Wrappers
  import opened Strings
  import opened Seqs
  import opened Sheet

  /** Why generation was refused; the page shows a toast and keeps its SQL. */
  datatype GenError =
    | EmptyDataset       // no rows or no headers loaded
    | MissingTableName   // the table name is blank after trimming

  /** `value.replace(/'/g, "''")`: every single quote doubled, nothing else touched. */
  function DoubleQuotes(s: string): string
    decreases |s|
  {
    if |s| == 0 then [] else (if s[0] == '\'' then "''" else [s[0]]) + DoubleQuotes(s[1..])
  }

  /** Escaping lengthens the text by exactly its number of single quotes. */
  lemma {:induction false} DoubleQuotesLength(s: string)
    ensures |DoubleQuotes(s)| == |s| + multiset(s)['\'']
    decreases |s|
  {
    if |s| > 0 {
      DoubleQuotesLength(s[1..]);
      assert s == [s[0]] + s[1..];
    }
  }

  /**
   * `formatValue`: a blank cell becomes the bare keyword NULL, text becomes
   * a single-quoted literal of the untrimmed text, and a number is emitted
   * as its decimal text without quotes.
   */
  function FormatValue(c: Cell): (r: string)
    ensures r == "NULL" <==> IsBlankCell(c)
    ensures c.Text? && !IsBlankCell(c) ==> |r| >= 2 && r[0] == '\'' && r[|r| - 1] == '\''
    ensures c.Num? ==> r == IntText(c.n)
  {
    NumbersAreNotBlank();
    if IsBlankCell(c) then "NULL"
    else if c.Text? then
      var r := "'" + DoubleQuotes(c.s) + "'";
      assert r[0] != "NULL"[0];
      r
    else CellText(c)
  }

  /** `` `${name.trim()}` ``: an identifier in backticks, trimmed but not escaped. */
  function Ident(name: string): string {
    "`" + Trim(name) + "`"
  }

  /** A name without surrounding white space is quoted as it is. */
  lemma IdentOfTrimmed(name: string)
    requires IsTrimmed(name)
    ensures Ident(name) == "`" + name + "`"
  {
    TrimOfTrimmed(name);
  }

  /** `headers.map(h => `\`${h.trim()}\``).join(', ')`. */
  function ColumnList(headers: seq<string>): string {
    Join(Map(headers, Ident), ", ")
  }

  /** `row[header]`: a missing key reads as `undefined`, which formats as NULL. */
  function Lookup(row: Row, h: string): Cell {
    if h in row then row[h] else Absent
  }

  /** The cells of a row in header order. */
  function RowCells(headers: seq<string>, row: Row): seq<Cell> {
    Map(headers, h => Lookup(row, h))
  }

  /** `headers.map(header => formatValue(row[header])).join(', ')`. */
  function ValueList(headers: seq<string>, row: Row): string {
    Join(Map(RowCells(headers, row), FormatValue), ", ")
  }

  /** One parenthesised value tuple. */
  function Tuple(headers: seq<string>, row: Row): string {
    "(" + ValueList(headers, row) + ")"
  }

  /** `` INSERT INTO `table` (`h1`, `h2`, ...) ``, shared by both layouts. */
  function Head(tableName: string, headers: seq<string>): string {
    "INSERT INTO " + Ident(tableName) + " (" + ColumnList(headers) + ")"
  }

  /** The statement single-row mode emits for one row. */
  function SingleInsert(tableName: string, headers: seq<string>, row: Row): string {
    Head(tableName, headers) + " VALUES " + Tuple(headers, row) + ";"
  }

  /** The single-row statements, one per row in row order. */
  function Statements(tableName: string, headers: seq<string>, rows: seq<Row>): seq<string> {
    Map(rows, row => SingleInsert(tableName, headers, row))
  }

  /** Single-row mode: the statements joined by line feeds. */
  function SingleInserts(tableName: string, headers: seq<string>, rows: seq<Row>): string {
    Join(Statements(tableName, headers, rows), "\n")
  }

  /** The value tuples, one per row in row order. */
  function Tuples(headers: seq<string>, rows: seq<Row>): seq<string> {
    Map(rows, row => Tuple(headers, row))
  }

  /** Batch mode: one statement whose tuples are separated by a comma, a line feed and four spaces. */
  function BatchInsert(tableName: string, headers: seq<string>, rows: seq<Row>): string {
    Head(tableName, headers) + " VALUES\n    " + Join(Tuples(headers, rows), ",\n    ") + ";"
  }

  /**
   * `generateSql`: refuses an empty dataset, then a blank table name, and
   * otherwise renders every row in the chosen layout.
   */
  function Generate(headers: seq<string>, rows: seq<Row>, tableName: string, batch: bool): (r: Result<string, GenError>)
    ensures r == Failure(EmptyDataset) <==> |rows| == 0 || |headers| == 0
    ensures r == Failure(MissingTableName) <==> |rows| > 0 && |headers| > 0 && IsBlank(tableName)
    ensures r.Success? ==> |r.value| > 0
  {
    if |rows| == 0 || |headers| == 0 then Failure(EmptyDataset)
    else if IsBlank(tableName) then Failure(MissingTableName)
    else if batch then Success(BatchInsert(tableName, headers, rows))
    else
      JoinStarts(Statements(tableName, headers, rows), "\n");
      Success(SingleInserts(tableName, headers, rows))
  }

  /** A join starts with its first part. */
  lemma JoinStarts(parts: seq<string>, sep: string)
    requires |parts| > 0
    ensures parts[0] <= Join(parts, sep)
  {
    if |parts| > 1 {
      assert Join(parts, sep) == parts[0] + (sep + Join(parts[1..], sep));
    }
  }

  /** Text without single quotes passes through `DoubleQuotes` unchanged. */
  lemma {:induction false} NoQuotesUnchanged(s: string)
    requires forall i :: 0 <= i < |s| ==> s[i] != '\''
    ensures DoubleQuotes(s) == s
    decreases |s|
  {
    if |s| > 0 {
      NoQuotesUnchanged(s[1..]);
      assert s == [s[0]] + s[1..];
    }
  }

  /** Escaping works character by character, so it distributes over concatenation. */
  lemma {:induction false} DoubleQuotesConcat(a: string, b: string)
    ensures DoubleQuotes(a + b) == DoubleQuotes(a) + DoubleQuotes(b)
    decreases |a|
  {
    if |a| > 0 {
      assert (a + b)[1..] == a[1..] + b;
      DoubleQuotesConcat(a[1..], b);
    } else {
      assert a + b == b;
    }
  }

  /** A non-blank text cell is its escaped text between single quotes. */
  lemma QuotedText(s: string, escaped: string)
    requires !IsBlank(s) && DoubleQuotes(s) == escaped
    ensures FormatValue(Text(s)) == "'" + escaped + "'"
  {
  }

  /** Non-empty text with no surrounding white space and no single quote is quoted as it is. */
  lemma PlainText(s: string)
    requires s != [] && IsTrimmed(s)
    requires forall i :: 0 <= i < |s| ==> s[i] != '\''
    ensures FormatValue(Text(s)) == "'" + s + "'"
  {
    TrimOfTrimmed(s);
    NoQuotesUnchanged(s);
  }

  /** The quote-doubling example: `O'Brien` becomes `'O''Brien'`. */
  lemma QuoteExample()
    ensures FormatValue(Text("O'Brien")) == "'O''Brien'"
  {
    assert "'" + "O''Brien" + "'" == "'O''Brien'";
    TrimOfTrimmed("O'Brien");
    EscapeExample();
    QuotedText("O'Brien", "O''Brien");
  }

  lemma EscapeExample()
    ensures DoubleQuotes("O'Brien") == "O''Brien"
  {
    assert "O'Brien" == "O" + "'" + "Brien";
    DoubleQuotesConcat("O", "'");
    DoubleQuotesConcat("O'", "Brien");
    NoQuotesUnchanged("O");
    NoQuotesUnchanged("Brien");
    assert DoubleQuotes("'") == "''";
    assert "O" + "''" + "Brien" == "O''Brien";
  }
}

=== FILE: sqloutput.dfy ===
/** What the SQL panel hands to the clipboard and to the download. */
module SqlOutput {
  import opened Strings

  /** The fixed ending of every download name. */
  const Suffix := "_inserts.sql"

  /** The stem used when the table name is blank. */
  const Fallback := "data"

  /** The part of the download name in front of the suffix. */
  function Stem(tableName: string): (stem: string)
    ensures stem != [] && IsTrimmed(stem)
    ensures !IsBlank(tableName) ==> stem == Trim(tableName)
    ensures IsBlank(tableName) ==> stem == Fallback
  {
    var t := Trim(tableName);
    if t == [] then Fallback else t
  }

  /** `${tableName.trim() || 'data'}_inserts.sql`. */
  function DownloadName(tableName: string): (name: string)
    ensures |name| > |Suffix| && EndsWith(name, Suffix)
    ensures name[..|name| - |Suffix|] == Stem(tableName)
  {
    var stem := Stem(tableName);
    var name := stem + Suffix;
    assert name[..|name| - |Suffix|] == stem;
    name
  }

  /**
   * Two table names give the same download name exactly when they have the
   * same stem: the suffix can always be cut off again.
   */
  lemma DownloadNameInjective(t: string, u: string)
    ensures DownloadName(t) == DownloadName(u) <==> Stem(t) == Stem(u)
  {
    if DownloadName(t) == DownloadName(u) {
      var n := DownloadName(t);
      assert Stem(t) == n[..|n| - |Suffix|] == Stem(u);
    }
  }

  /** Surrounding white space in the table name never reaches the file name. */
  lemma DownloadNameIgnoresPadding(tableName: string)
    ensures DownloadName(Trim(tableName)) == DownloadName(tableName)
  {
    TrimIdempotent(tableName);
    DownloadNameInjective(Trim(tableName), tableName);
  }

  /** A blank table name downloads as `data_inserts.sql`. */
  lemma BlankNameExample()
    ensures DownloadName("   ") == "data_inserts.sql"
  {
    ThreeSpacesBlank();
    BlankName("   ");
    assert Fallback + Suffix == "data_inserts.sql";
  }

  lemma ThreeSpacesBlank()
    ensures IsBlank("   ")
  {
    assert AllSpace("   ");
  }

  /** Any blank table name downloads under the fallback stem. */
  lemma BlankName(tableName: string)
    requires IsBlank(tableName)
    ensures DownloadName(tableName) == Fallback + Suffix
  {
  }

  /** The payloads of the copy and download buttons. */
  datatype Export = Export(clipboard: string, fileContent: string, fileType: string, fileName: string)

  /**
   * `copyToClipboard` writes the SQL and `downloadSqlFile` wraps the same
   * SQL in a `Blob` of type `application/sql`, named after the table.
   */
  function Exports(sql: string, tableName: string): (e: Export)
    ensures e.clipboard == sql && e.fileContent == sql
    ensures e.fileType == "application/sql"
    ensures EndsWith(e.fileName, Suffix)
  {
    Export(sql, sql, "application/sql", DownloadName(tableName))
  }
}

=== FILE: sqlread.dfy ===
/**
 * A reader for exactly the SQL that `generateSql` writes. It is the partner
 * of the generator: reading the generated text back recovers the table name,
 * the column names, every row's values and the layout after `VALUES`, which
 * pins down the statement count, the tuple count, the separators and the
 * escaping at once.
 */
module SqlRead {
  import opened Wrappers
  import opened Strings
  import opened Seqs
  import opened Sheet
  import opened SqlGen

  /** Something read from the front of a text, and the text after it. */
  datatype Read<T> = Read(item: T, rest: string)

  /** The table and column list of an INSERT statement. */
  datatype Target = Target(table: string, columns: seq<string>)

  /**
   * One INSERT statement as read back: its target, its value tuples, and
   * whether the tuples start on a new indented line after `VALUES` (the batch
   * layout) rather than after a single space.
   */
  datatype Insert = Insert(table: string, columns: seq<string>, tuples: seq<seq<Cell>>, indented: bool)

  /** A cell as SQL sees it once formatted: blank text and absence both become NULL. */
  function Normalize(c: Cell): Cell {
    if IsBlankCell(c) then Absent else c
  }

  /** The values a row contributes, in header order, as SQL sees them. */
  function NormalCells(headers: seq<string>, row: Row): (cells: seq<Cell>)
    ensures |cells| == |headers|
    ensures forall i :: 0 <= i < |headers| ==> cells[i] == Normalize(Lookup(row, headers[i]))
  {
    Map(RowCells(headers, row), Normalize)
  }

  /** The value tuples of all rows, in row order. */
  function NormalRows(headers: seq<string>, rows: seq<Row>): (tuples: seq<seq<Cell>>)
    ensures |tuples| == |rows|
    ensures forall k :: 0 <= k < |rows| ==> tuples[k] == NormalCells(headers, rows[k])
  {
    Map(rows, row => NormalCells(headers, row))
  }

  /** No backtick: an identifier that the unescaped quoting cannot break. */
  predicate NoTick(s: string) {
    forall i :: 0 <= i < |s| ==> s[i] != '`'
  }

  /** Every identifier of a statement is safe to quote without escaping. */
  predicate SafeIdentifiers(tableName: string, headers: seq<string>) {
    NoTick(Trim(tableName)) && forall i :: 0 <= i < |headers| ==> NoTick(Trim(headers[i]))
  }

  /** Reads the exact text `p` at the front of `s`. */
  function Expect(s: string, p: string): (r: Option<string>)
    ensures r.Some? ==> |r.value| == |s| - |p| && s == p + r.value
  {
    if p <= s then Some(s[|p|..]) else None
  }

  lemma ExpectConcat(p: string, x: string)
    ensures Expect(p + x, p) == Some(x)
  {
    assert p <= p + x;
  }

  // ----- literals -----

  /** The body of a quoted literal up to its closing quote, undoubling `''`. */
  function ReadQuoted(s: string): (r: Option<Read<string>>)
    ensures r.Some? ==> |r.value.rest| < |s|
    decreases |s|
  {
    if |s| == 0 then None
    else if s[0] == '\'' then
      if |s| > 1 && s[1] == '\'' then
        var more :- ReadQuoted(s[2..]);
        Some(Read("'" + more.item, more.rest))
      else Some(Read([], s[1..]))
    else
      var more :- ReadQuoted(s[1..]);
      Some(Read([s[0]] + more.item, more.rest))
  }

  /** The end of the run of decimal digits that starts at position `i` of `s`. */
  function DigitEnd(s: string, i: nat): (k: nat)
    requires i <= |s|
    ensures i <= k <= |s|
    ensures forall m :: i <= m < k ==> IsDigit(s[m])
    ensures k == |s| || !IsDigit(s[k])
    decreases |s| - i
  {
    if i < |s| && IsDigit(s[i]) then DigitEnd(s, i + 1) else i
  }

  /** An optional minus sign followed by at least one digit. */
  function ReadNumber(s: string): (r: Option<Read<int>>)
    ensures r.Some? ==> |r.value.rest| < |s|
  {
    var negative := |s| > 0 && s[0] == '-';
    var body := if negative then s[1..] else s;
    var k := DigitEnd(body, 0);
    if k == 0 then None
    else
      var magnitude: int := ParseNat(body[..k]);
      Some(Read(if negative then -magnitude else magnitude, body[k..]))
  }

  /** NULL, a quoted text literal, or a number. */
  function ReadLiteral(s: string): (r: Option<Read<Cell>>)
    ensures r.Some? ==> |r.value.rest| < |s|
  {
    if "NULL" <= s then Some(Read(Absent, s[4..]))
    else if |s| > 0 && s[0] == '\'' then
      var q :- ReadQuoted(s[1..]);
      Some(Read(Text(q.item), q.rest))
    else
      var m :- ReadNumber(s);
      Some(Read(Num(m.item), m.rest))
  }

  // ----- lists -----

  /** Literals separated by `, `. */
  function ReadValues(s: string): (r: Option<Read<seq<Cell>>>)
    ensures r.Some? ==> |r.value.rest| < |s|
    decreases |s|
  {
    var first :- ReadLiteral(s);
    if ", " <= first.rest then
      var more :- ReadValues(first.rest[2..]);
      Some(Read([first.item] + more.item, more.rest))
    else Some(Read([first.item], first.rest))
  }

  /** A parenthesised value list. */
  function ReadTuple(s: string): (r: Option<Read<seq<Cell>>>)
    ensures r.Some? ==> |r.value.rest| < |s|
  {
    var open :- Expect(s, "(");
    var values :- ReadValues(open);
    var close :- Expect(values.rest, ")");
    Some(Read(values.item, close))
  }

  /** Tuples separated by a comma, a line feed and four spaces. */
  function ReadTuples(s: string): (r: Option<Read<seq<seq<Cell>>>>)
    ensures r.Some? ==> |r.value.rest| < |s|
    decreases |s|
  {
    var first :- ReadTuple(s);
    if ",\n    " <= first.rest then
      var more :- ReadTuples(first.rest[6..]);
      Some(Read([first.item] + more.item, more.rest))
    else Some(Read([first.item], first.rest))
  }

  /** The position of the first backtick at or after position `i` of `s`, or `|s|`. */
  function TickEnd(s: string, i: nat): (k: nat)
    requires i <= |s|
    ensures i <= k <= |s|
    ensures forall m :: i <= m < k ==> s[m] != '`'
    ensures k == |s| || s[k] == '`'
    decreases |s| - i
  {
    if i < |s| && s[i] != '`' then TickEnd(s, i + 1) else i
  }

  /** A backtick-quoted identifier; it ends at the first backtick after the opening one. */
  function ReadIdent(s: string): (r: Option<Read<string>>)
    ensures r.Some? ==> |r.value.rest| < |s|
  {
    var open :- Expect(s, "`");
    var k := TickEnd(open, 0);
    if k == |open| then None else Some(Read(open[..k], open[k + 1..]))
  }

  /** Identifiers separated by `, `. */
  function ReadColumns(s: string): (r: Option<Read<seq<string>>>)
    ensures r.Some? ==> |r.value.rest| < |s|
    decreases |s|
  {
    var first :- ReadIdent(s);
    if ", " <= first.rest then
      var more :- ReadColumns(first.rest[2..]);
      Some(Read([first.item] + more.item, more.rest))
    else Some(Read([first.item], first.rest))
  }

  // ----- statements -----

  /** `` INSERT INTO `t` (`a`, `b`) ``. */
  function ReadHead(s: string): (r: Option<Read<Target>>)
    ensures r.Some? ==> |r.value.rest| < |s|
  {
    var a :- Expect(s, "INSERT INTO ");
    var table :- ReadIdent(a);
    var b :- Expect(table.rest, " (");
    var columns :- ReadColumns(b);
    var c :- Expect(columns.rest, ")");
    Some(Read(Target(table.item, columns.item), c))
  }

  /**
   * A whole statement: the head, ` VALUES`, then either a space (single-row
   * layout) or a line feed and four spaces (batch layout), the tuples, `;`.
   */
  function ReadStatement(s: string): (r: Option<Read<Insert>>)
    ensures r.Some? ==> |r.value.rest| < |s|
  {
    var head :- ReadHead(s);
    var v :- Expect(head.rest, " VALUES");
    var layout :- if " " <= v then Some(Read(false, v[1..]))
                  else if "\n    " <= v then Some(Read(true, v[5..]))
                  else None;
    var tuples :- ReadTuples(layout.rest);
    var end :- Expect(tuples.rest, ";");
    Some(Read(Insert(head.item.table, head.item.columns, tuples.item, layout.item), end))
  }

  /** Statements separated by single line feeds, with nothing after the last. */
  function ReadScript(s: string): Option<seq<Insert>>
    decreases |s|
  {
    var first :- ReadStatement(s);
    if first.rest == [] then Some([first.item])
    else if first.rest[0] == '\n' then
      var more :- ReadScript(first.rest[1..]);
      Some([first.item] + more)
    else None
  }

  // ----- round trips: literals -----

  /** The escaped body of a text literal reads back as the original text. */
  lemma {:induction false} QuotedRoundTrip(s: string, rest: string)
    requires rest == [] || rest[0] != '\''
    ensures ReadQuoted(DoubleQuotes(s) + "'" + rest) == Some(Read(s, rest))
    decreases |s|
  {
    var input := DoubleQuotes(s) + "'" + rest;
    if |s| == 0 {
      assert input == "'" + rest;
      assert input[1..] == rest;
    } else {
      QuotedRoundTrip(s[1..], rest);
      var tail := DoubleQuotes(s[1..]) + "'" + rest;
      if s[0] == '\'' {
        assert input == "''" + tail;
        assert input[2..] == tail;
        assert s == "'" + s[1..];
      } else {
        assert input == [s[0]] + tail;
        assert input[1..] == tail;
        assert s == [s[0]] + s[1..];
      }
    }
  }

  /** A digit run stops exactly where the digits stop. */
  lemma DigitRunOf(d: string, rest: string)
    requires AllDigits(d)
    requires rest == [] || !IsDigit(rest[0])
    ensures DigitEnd(d + rest, 0) == |d|
  {
    var s := d + rest;
    assert forall m :: 0 <= m < |d| ==> s[m] == d[m];
    assert |s| > |d| ==> s[|d|] == rest[0];
  }

  /** The decimal text of an integer reads back as that integer. */
  lemma NumberRoundTrip(n: int, rest: string)
    requires rest == [] || !IsDigit(rest[0])
    ensures ReadNumber(IntText(n) + rest) == Some(Read(n, rest))
  {
    var m: nat := if n < 0 then -n else n;
    var digits := NatText(m);
    var body := digits + rest;
    DigitRunOf(digits, rest);
    assert body[..|digits|] == digits;
    assert body[|digits|..] == rest;
    NatTextRoundTrip(m);
    if n < 0 {
      assert IntText(n) + rest == "-" + body;
      assert ("-" + body)[1..] == body;
    } else {
      assert IntText(n) + rest == body;
    }
  }

  /**
   * Every formatted value reads back as the cell it came from, except that a
   * blank cell reads back as NULL, whatever its text was.
   */
  lemma LiteralRoundTrip(c: Cell, rest: string)
    requires rest == [] || rest[0] == ',' || rest[0] == ')'
    ensures ReadLiteral(FormatValue(c) + rest) == Some(Read(Normalize(c), rest))
  {
    var text := FormatValue(c);
    var input := text + rest;
    if IsBlankCell(c) {
      assert "NULL" <= input;
      assert input[4..] == rest;
    } else if c.Text? {
      TextLiteralRoundTrip(c.s, rest);
    } else {
      NumberRoundTrip(c.n, rest);
      assert input[0] == text[0];
    }
  }

  lemma TextLiteralRoundTrip(s: string, rest: string)
    requires !IsBlank(s)
    requires rest == [] || rest[0] == ',' || rest[0] == ')'
    ensures ReadLiteral(FormatValue(Text(s)) + rest) == Some(Read(Text(s), rest))
  {
    var e := DoubleQuotes(s);
    var tail := e + "'" + rest;
    assert FormatValue(Text(s)) == "'" + e + "'";
    Reassociate("'", e, "'", rest);
    assert ("'" + tail)[1..] == tail;
    QuotedRoundTrip(s, rest);
  }

  /** Concatenation regrouped to the right. */
  lemma Reassociate(a: string, b: string, c: string, d: string)
    ensures a + b + c + d == a + (b + c + d)
    ensures a + b + c + d == a + (b + (c + d))
  {
  }

  // ----- round trips: lists -----

  /** A formatted value list reads back as the row's cells, blanks as NULL. */
  lemma {:induction false} ValuesRoundTrip(cells: seq<Cell>, rest: string)
    requires |cells| > 0
    requires |rest| > 0 && rest[0] == ')'
    ensures ReadValues(Join(Map(cells, FormatValue), ", ") + rest) == Some(Read(Map(cells, Normalize), rest))
    decreases |cells|
  {
    if |cells| == 1 {
      ValuesLast(cells, rest);
    } else {
      ValuesRoundTrip(cells[1..], rest);
      ValuesCons(cells, rest);
    }
  }

  lemma ValuesLast(cells: seq<Cell>, rest: string)
    requires |cells| == 1
    requires |rest| > 0 && rest[0] == ')'
    ensures ReadValues(Join(Map(cells, FormatValue), ", ") + rest) == Some(Read(Map(cells, Normalize), rest))
  {
    var texts := Map(cells, FormatValue);
    assert Join(texts, ", ") == texts[0];
    LiteralRoundTrip(cells[0], rest);
    ReadValuesLast(texts[0] + rest, Normalize(cells[0]), rest);
    assert Map(cells, Normalize) == [Normalize(cells[0])];
  }

  lemma ValuesCons(cells: seq<Cell>, rest: string)
    requires |cells| > 1
    requires |rest| > 0 && rest[0] == ')'
    requires ReadValues(Join(Map(cells[1..], FormatValue), ", ") + rest) == Some(Read(Map(cells[1..], Normalize), rest))
    ensures ReadValues(Join(Map(cells, FormatValue), ", ") + rest) == Some(Read(Map(cells, Normalize), rest))
  {
    var texts := Map(cells, FormatValue);
    var j := Join(Map(cells[1..], FormatValue), ", ");
    MapCons(cells, FormatValue);
    assert texts[1..] == Map(cells[1..], FormatValue);
    JoinCons(texts, ", ", rest);
    LiteralRoundTrip(cells[0], ", " + (j + rest));
    ReadValuesCons(texts[0] + (", " + (j + rest)), Normalize(cells[0]), j + rest, Map(cells[1..], Normalize), rest);
    MapCons(cells, Normalize);
  }

  /** `ReadValues` on a literal followed by the closing parenthesis. */
  lemma ReadValuesLast(s: string, x: Cell, rest: string)
    requires ReadLiteral(s) == Some(Read(x, rest))
    requires |rest| > 0 && rest[0] == ')'
    ensures ReadValues(s) == Some(Read([x], rest))
  {
    assert !(", " <= rest) by {
      assert rest[0] != ", "[0];
    }
  }

  /** `ReadValues` on a literal followed by `, ` and more values. */
  lemma ReadValuesCons(s: string, x: Cell, tail: string, xs: seq<Cell>, rest: string)
    requires ReadLiteral(s) == Some(Read(x, ", " + tail))
    requires ReadValues(tail) == Some(Read(xs, rest))
    ensures ReadValues(s) == Some(Read([x] + xs, rest))
  {
    assert ", " <= ", " + tail;
    assert (", " + tail)[2..] == tail;
  }

  /** One value tuple reads back as the row's normalized cells in header order. */
  lemma TupleRoundTrip(headers: seq<string>, row: Row, rest: string)
    requires |headers| > 0
    ensures ReadTuple(Tuple(headers, row) + rest) == Some(Read(NormalCells(headers, row), rest))
  {
    var vl := ValueList(headers, row);
    Reassociate("(", vl, ")", rest);
    ExpectConcat("(", vl + (")" + rest));
    ValuesRoundTrip(RowCells(headers, row), ")" + rest);
    ExpectConcat(")", rest);
  }

  /** The batch tuple list reads back as every row's tuple, in row order. */
  lemma {:induction false} TuplesRoundTrip(headers: seq<string>, rows: seq<Row>, rest: string)
    requires |headers| > 0 && |rows| > 0
    requires |rest| > 0 && rest[0] == ';'
    ensures ReadTuples(Join(Tuples(headers, rows), ",\n    ") + rest) == Some(Read(NormalRows(headers, rows), rest))
    decreases |rows|
  {
    if |rows| == 1 {
      TuplesLast(headers, rows, rest);
    } else {
      TuplesRoundTrip(headers, rows[1..], rest);
      TuplesCons(headers, rows, rest);
    }
  }

  lemma TuplesLast(headers: seq<string>, rows: seq<Row>, rest: string)
    requires |headers| > 0 && |rows| == 1
    requires |rest| > 0 && rest[0] == ';'
    ensures ReadTuples(Join(Tuples(headers, rows), ",\n    ") + rest) == Some(Read(NormalRows(headers, rows), rest))
  {
    var ts := Tuples(headers, rows);
    assert Join(ts, ",\n    ") == ts[0];
    TupleRoundTrip(headers, rows[0], rest);
    ReadTuplesLast(ts[0] + rest, NormalCells(headers, rows[0]), rest);
    assert NormalRows(headers, rows) == [NormalCells(headers, rows[0])];
  }

  lemma TuplesCons(headers: seq<string>, rows: seq<Row>, rest: string)
    requires |headers| > 0 && |rows| > 1
    requires |rest| > 0 && rest[0] == ';'
    requires ReadTuples(Join(Tuples(headers, rows[1..]), ",\n    ") + rest) == Some(Read(NormalRows(headers, rows[1..]), rest))
    ensures ReadTuples(Join(Tuples(headers, rows), ",\n    ") + rest) == Some(Read(NormalRows(headers, rows), rest))
  {
    var ts := Tuples(headers, rows);
    var j := Join(Tuples(headers, rows[1..]), ",\n    ");
    assert ts[1..] == Tuples(headers, rows[1..]);
    JoinCons(ts, ",\n    ", rest);
    TupleRoundTrip(headers, rows[0], ",\n    " + (j + rest));
    ReadTuplesCons(ts[0] + (",\n    " + (j + rest)), NormalCells(headers, rows[0]), j + rest,
      NormalRows(headers, rows[1..]), rest);
    NormalRowsCons(headers, rows);
  }

  /** `ReadTuples` on a tuple followed by the closing semicolon. */
  lemma ReadTuplesLast(s: string, x: seq<Cell>, rest: string)
    requires ReadTuple(s) == Some(Read(x, rest))
    requires |rest| > 0 && rest[0] == ';'
    ensures ReadTuples(s) == Some(Read([x], rest))
  {
    assert !(",\n    " <= rest) by {
      assert rest[0] != ",\n    "[0];
    }
  }

  /** `ReadTuples` on a tuple followed by the tuple separator and more tuples. */
  lemma ReadTuplesCons(s: string, x: seq<Cell>, tail: string, xs: seq<seq<Cell>>, rest: string)
    requires ReadTuple(s) == Some(Read(x, ",\n    " + tail))
    requires ReadTuples(tail) == Some(Read(xs, rest))
    ensures ReadTuples(s) == Some(Read([x] + xs, rest))
  {
    assert ",\n    " <= ",\n    " + tail;
    assert (",\n    " + tail)[6..] == tail;
  }

  lemma NormalRowsCons(headers: seq<string>, rows: seq<Row>)
    requires |rows| > 0
    ensures NormalRows(headers, rows) == [NormalCells(headers, rows[0])] + NormalRows(headers, rows[1..])
  {
    var a, b := NormalRows(headers, rows), [NormalCells(headers, rows[0])] + NormalRows(headers, rows[1..]);
    assert forall k :: 1 <= k < |a| ==> a[k] == NormalRows(headers, rows[1..])[k - 1];
    assert forall k :: 0 <= k < |a| ==> a[k] == b[k];
  }

  /** A backtick-free run stops at the closing backtick. */
  lemma TickRunOf(t: string, rest: string)
    requires NoTick(t)
    ensures TickEnd(t + "`" + rest, 0) == |t|
  {
    var s := t + "`" + rest;
    assert forall m :: 0 <= m < |t| ==> s[m] == t[m];
    assert s[|t|] == '`';
  }

  /** A quoted identifier reads back as the trimmed name, if the name has no backtick. */
  lemma IdentRoundTrip(name: string, rest: string)
    requires NoTick(Trim(name))
    ensures ReadIdent(Ident(name) + rest) == Some(Read(Trim(name), rest))
  {
    var t := Trim(name);
    Reassociate("`", t, "`", rest);
    var open := t + ("`" + rest);
    ExpectConcat("`", open);
    assert open == t + "`" + rest;
    TickRunOf(t, rest);
    assert open[..|t|] == t;
    assert open[|t| + 1..] == rest;
  }

  /** The column list reads back as the trimmed headers, in order. */
  lemma {:induction false} ColumnsRoundTrip(headers: seq<string>, rest: string)
    requires |headers| > 0
    requires forall i :: 0 <= i < |headers| ==> NoTick(Trim(headers[i]))
    requires |rest| > 0 && rest[0] == ')'
    ensures ReadColumns(ColumnList(headers) + rest) == Some(Read(Map(headers, Trim), rest))
    decreases |headers|
  {
    if |headers| == 1 {
      ColumnsLast(headers, rest);
    } else {
      ColumnsRoundTrip(headers[1..], rest);
      ColumnsCons(headers, rest);
    }
  }

  lemma ColumnsLast(headers: seq<string>, rest: string)
    requires |headers| == 1 && NoTick(Trim(headers[0]))
    requires |rest| > 0 && rest[0] == ')'
    ensures ReadColumns(ColumnList(headers) + rest) == Some(Read(Map(headers, Trim), rest))
  {
    var ids := Map(headers, Ident);
    assert Join(ids, ", ") == ids[0];
    IdentRoundTrip(headers[0], rest);
    ReadColumnsLast(ids[0] + rest, Trim(headers[0]), rest);
    assert Map(headers, Trim) == [Trim(headers[0])];
  }

  lemma ColumnsCons(headers: seq<string>, rest: string)
    requires |headers| > 1 && NoTick(Trim(headers[0]))
    requires |rest| > 0 && rest[0] == ')'
    requires ReadColumns(ColumnList(headers[1..]) + rest) == Some(Read(Map(headers[1..], Trim), rest))
    ensures ReadColumns(ColumnList(headers) + rest) == Some(Read(Map(headers, Trim), rest))
  {
    var ids := Map(headers, Ident);
    var j := ColumnList(headers[1..]);
    MapCons(headers, Ident);
    assert ids[1..] == Map(headers[1..], Ident);
    JoinCons(ids, ", ", rest);
    IdentRoundTrip(headers[0], ", " + (j + rest));
    ReadColumnsCons(ids[0] + (", " + (j + rest)), Trim(headers[0]), j + rest, Map(headers[1..], Trim), rest);
    MapCons(headers, Trim);
  }

  /** `ReadColumns` on an identifier followed by the closing parenthesis. */
  lemma ReadColumnsLast(s: string, x: string, rest: string)
    requires ReadIdent(s) == Some(Read(x, rest))
    requires |rest| > 0 && rest[0] == ')'
    ensures ReadColumns(s) == Some(Read([x], rest))
  {
    assert !(", " <= rest) by {
      assert rest[0] != ", "[0];
    }
  }

  /** `ReadColumns` on an identifier followed by `, ` and more identifiers. */
  lemma ReadColumnsCons(s: string, x: string, tail: string, xs: seq<string>, rest: string)
    requires ReadIdent(s) == Some(Read(x, ", " + tail))
    requires ReadColumns(tail) == Some(Read(xs, rest))
    ensures ReadColumns(s) == Some(Read([x] + xs, rest))
  {
    assert ", " <= ", " + tail;
    assert (", " + tail)[2..] == tail;
  }

  // ----- round trips: statements and scripts -----

  /** The shared head reads back as the trimmed table name and trimmed headers. */
  lemma HeadRoundTrip(tableName: string, headers: seq<string>, rest: string)
    requires |headers| > 0 && SafeIdentifiers(tableName, headers)
    ensures ReadHead(Head(tableName, headers) + rest) == Some(Read(Target(Trim(tableName), Map(headers, Trim)), rest))
  {
    var id, cl := Ident(tableName), ColumnList(headers);
    var afterColumns := ")" + rest;
    var afterTable := " (" + (cl + afterColumns);
    var afterKeyword := id + afterTable;
    HeadShape(tableName, headers, rest);
    ExpectConcat("INSERT INTO ", afterKeyword);
    IdentRoundTrip(tableName, afterTable);
    ExpectConcat(" (", cl + afterColumns);
    ColumnsRoundTrip(headers, afterColumns);
    ExpectConcat(")", rest);
    ReadHeadSteps(Head(tableName, headers) + rest, afterKeyword, Trim(tableName), afterTable,
      cl + afterColumns, Map(headers, Trim), afterColumns, rest);
  }

  /** The head, regrouped around its separators. */
  lemma HeadShape(tableName: string, headers: seq<string>, rest: string)
    ensures Head(tableName, headers) + rest
         == "INSERT INTO " + (Ident(tableName) + (" (" + (ColumnList(headers) + (")" + rest))))
  {
    var id, cl := Ident(tableName), ColumnList(headers);
    Reassociate("INSERT INTO " + id, " (", cl, ")" + rest);
    Reassociate("INSERT INTO ", id, " (", cl + (")" + rest));
  }

  /** `ReadHead` from the results of its five steps. */
  lemma ReadHeadSteps(s: string, afterKeyword: string, table: string, afterTable: string,
                      columnsText: string, columns: seq<string>, afterColumns: string, rest: string)
    requires Expect(s, "INSERT INTO ") == Some(afterKeyword)
    requires ReadIdent(afterKeyword) == Some(Read(table, afterTable))
    requires Expect(afterTable, " (") == Some(columnsText)
    requires ReadColumns(columnsText) == Some(Read(columns, afterColumns))
    requires Expect(afterColumns, ")") == Some(rest)
    ensures ReadHead(s) == Some(Read(Target(table, columns), rest))
  {
  }

  /** The one-row statement of single-row mode, regrouped around its separators. */
  lemma SingleInsertShape(tableName: string, headers: seq<string>, row: Row, rest: string)
    ensures SingleInsert(tableName, headers, row) + rest
         == Head(tableName, headers) + (" VALUES" + (" " + (Tuple(headers, row) + (";" + rest))))
  {
    var h, tu := Head(tableName, headers), Tuple(headers, row);
    assert " VALUES " == " VALUES" + " ";
    Reassociate(h, " VALUES ", tu, ";" + rest);
    Reassociate(h, " VALUES", " ", tu + (";" + rest));
  }

  /** A single-row statement reads back as one statement holding one tuple. */
  lemma SingleStatementRoundTrip(tableName: string, headers: seq<string>, row: Row, rest: string)
    requires |headers| > 0 && SafeIdentifiers(tableName, headers)
    ensures ReadStatement(SingleInsert(tableName, headers, row) + rest)
         == Some(Read(Insert(Trim(tableName), Map(headers, Trim), [NormalCells(headers, row)], false), rest))
  {
    var tu := Tuple(headers, row);
    var body := tu + (";" + rest);
    SingleInsertShape(tableName, headers, row, rest);
    HeadRoundTrip(tableName, headers, " VALUES" + (" " + body));
    ExpectConcat(" VALUES", " " + body);
    assert " " <= " " + body;
    assert (" " + body)[1..] == body;
    TupleRoundTrip(headers, row, ";" + rest);
    assert (";" + rest)[0] == ';';
    ExpectConcat(";", rest);
  }

  /** The batch statement, regrouped around its separators. */
  lemma BatchInsertShape(tableName: string, headers: seq<string>, rows: seq<Row>, rest: string)
    ensures BatchInsert(tableName, headers, rows) + rest
         == Head(tableName, headers) + (" VALUES" + ("\n    " + (Join(Tuples(headers, rows), ",\n    ") + (";" + rest))))
  {
    var h, j := Head(tableName, headers), Join(Tuples(headers, rows), ",\n    ");
    assert " VALUES\n    " == " VALUES" + "\n    ";
    Reassociate(h, " VALUES\n    ", j, ";" + rest);
    Reassociate(h, " VALUES", "\n    ", j + (";" + rest));
  }

  /** A batch statement reads back as one statement holding every row's tuple. */
  lemma BatchStatementRoundTrip(tableName: string, headers: seq<string>, rows: seq<Row>, rest: string)
    requires |headers| > 0 && |rows| > 0 && SafeIdentifiers(tableName, headers)
    ensures ReadStatement(BatchInsert(tableName, headers, rows) + rest)
         == Some(Read(Insert(Trim(tableName), Map(headers, Trim), NormalRows(headers, rows), true), rest))
  {
    var body := Join(Tuples(headers, rows), ",\n    ") + (";" + rest);
    BatchInsertShape(tableName, headers, rows, rest);
    HeadRoundTrip(tableName, headers, " VALUES" + ("\n    " + body));
    ExpectConcat(" VALUES", "\n    " + body);
    assert ("\n    " + body)[0] == '\n';
    assert "\n    " <= "\n    " + body;
    assert ("\n    " + body)[5..] == body;
    TuplesRoundTrip(headers, rows, ";" + rest);
    ExpectConcat(";", rest);
  }

  /** What single-row mode should read back as: one statement per row, one tuple each. */
  function SingleExpected(tableName: string, headers: seq<string>, rows: seq<Row>): seq<Insert>
    decreases |rows|
  {
    if |rows| == 0 then [] else
      [Insert(Trim(tableName), Map(headers, Trim), [NormalCells(headers, rows[0])], false)]
        + SingleExpected(tableName, headers, rows[1..])
  }

  /** Single-row output reads back as one statement per row, in row order. */
  lemma {:induction false} SingleScriptRoundTrip(tableName: string, headers: seq<string>, rows: seq<Row>)
    requires |headers| > 0 && |rows| > 0 && SafeIdentifiers(tableName, headers)
    ensures ReadScript(SingleInserts(tableName, headers, rows)) == Some(SingleExpected(tableName, headers, rows))
    decreases |rows|
  {
    if |rows| == 1 {
      SingleScriptLast(tableName, headers, rows);
    } else {
      SingleScriptRoundTrip(tableName, headers, rows[1..]);
      SingleScriptCons(tableName, headers, rows);
    }
  }

  /** The last statement of a single-row script ends the text. */
  lemma SingleScriptLast(tableName: string, headers: seq<string>, rows: seq<Row>)
    requires |headers| > 0 && |rows| == 1 && SafeIdentifiers(tableName, headers)
    ensures ReadScript(SingleInserts(tableName, headers, rows)) == Some(SingleExpected(tableName, headers, rows))
  {
    var first := SingleInsert(tableName, headers, rows[0]);
    var x := Insert(Trim(tableName), Map(headers, Trim), [NormalCells(headers, rows[0])], false);
    assert Statements(tableName, headers, rows)[0] == first;
    assert SingleInserts(tableName, headers, rows) == first;
    SingleStatementRoundTrip(tableName, headers, rows[0], []);
    assert first + [] == first;
    ReadScriptLast(first, x);
    assert rows[1..] == [];
    assert SingleExpected(tableName, headers, rows) == [x];
  }

  /** `ReadScript` on a statement that ends the text. */
  lemma ReadScriptLast(s: string, x: Insert)
    requires ReadStatement(s) == Some(Read(x, []))
    ensures ReadScript(s) == Some([x])
  {
  }

  /** `ReadScript` on a statement followed by a line feed and more script. */
  lemma ReadScriptCons(s: string, x: Insert, tail: string, xs: seq<Insert>)
    requires ReadStatement(s) == Some(Read(x, "\n" + tail))
    requires ReadScript(tail) == Some(xs)
    ensures ReadScript(s) == Some([x] + xs)
  {
    assert ("\n" + tail)[1..] == tail;
  }

  /** A statement followed by a line feed and the rest of the script reads back as one more statement. */
  lemma SingleScriptCons(tableName: string, headers: seq<string>, rows: seq<Row>)
    requires |headers| > 0 && |rows| > 1 && SafeIdentifiers(tableName, headers)
    requires ReadScript(SingleInserts(tableName, headers, rows[1..])) == Some(SingleExpected(tableName, headers, rows[1..]))
    ensures ReadScript(SingleInserts(tableName, headers, rows)) == Some(SingleExpected(tableName, headers, rows))
  {
    var rest := SingleInserts(tableName, headers, rows[1..]);
    SingleInsertsCons(tableName, headers, rows);
    SingleStatementRoundTrip(tableName, headers, rows[0], "\n" + rest);
    ReadScriptCons(SingleInsert(tableName, headers, rows[0]) + ("\n" + rest),
      Insert(Trim(tableName), Map(headers, Trim), [NormalCells(headers, rows[0])], false),
      rest, SingleExpected(tableName, headers, rows[1..]));
  }

  /** Single-row output is the first row's statement, a line feed, and the output for the other rows. */
  lemma SingleInsertsCons(tableName: string, headers: seq<string>, rows: seq<Row>)
    requires |rows| > 1
    ensures SingleInserts(tableName, headers, rows)
         == SingleInsert(tableName, headers, rows[0]) + ("\n" + SingleInserts(tableName, headers, rows[1..]))
  {
    var st := Statements(tableName, headers, rows);
    assert st[0] == SingleInsert(tableName, headers, rows[0]);
    assert st[1..] == Statements(tableName, headers, rows[1..]);
  }

  /** Batch output reads back as exactly one statement carrying every row. */
  lemma BatchScriptRoundTrip(tableName: string, headers: seq<string>, rows: seq<Row>)
    requires |headers| > 0 && |rows| > 0 && SafeIdentifiers(tableName, headers)
    ensures ReadScript(BatchInsert(tableName, headers, rows))
         == Some([Insert(Trim(tableName), Map(headers, Trim), NormalRows(headers, rows), true)])
  {
    BatchStatementRoundTrip(tableName, headers, rows, []);
    assert BatchInsert(tableName, headers, rows) + [] == BatchInsert(tableName, headers, rows);
  }

  /** The k-th statement single-row mode should produce carries the k-th row. */
  lemma {:induction false} SingleExpectedAt(tableName: string, headers: seq<string>, rows: seq<Row>)
    ensures |SingleExpected(tableName, headers, rows)| == |rows|
    ensures forall k :: 0 <= k < |rows| ==>
      SingleExpected(tableName, headers, rows)[k] == Insert(Trim(tableName), Map(headers, Trim), [NormalCells(headers, rows[k])], false)
    decreases |rows|
  {
    if |rows| > 0 {
      SingleExpectedAt(tableName, headers, rows[1..]);
      var e := SingleExpected(tableName, headers, rows);
      assert forall k :: 1 <= k < |rows| ==> e[k] == SingleExpected(tableName, headers, rows[1..])[k - 1];
    }
  }

  /**
   * Whatever `generateSql` accepts reads back completely: the statements are
   * one per row (or one in batch mode), each names the trimmed table and the
   * trimmed headers in order, the values are the rows' cells in header
   * order with blank and missing cells as NULL, and the tuples start on a new
   * indented line exactly in batch mode.
   */
  lemma GenerateRoundTrip(headers: seq<string>, rows: seq<Row>, tableName: string, batch: bool)
    requires SafeIdentifiers(tableName, headers)
    requires Generate(headers, rows, tableName, batch).Success?
    ensures ReadScript(Generate(headers, rows, tableName, batch).value)
         == Some(if batch then [Insert(Trim(tableName), Map(headers, Trim), NormalRows(headers, rows), true)]
                 else SingleExpected(tableName, headers, rows))
    ensures var stmts := ReadScript(Generate(headers, rows, tableName, batch).value).value;
      forall k :: 0 <= k < |stmts| ==> stmts[k].indented == batch
  {
    if batch {
      BatchScriptRoundTrip(tableName, headers, rows);
    } else {
      SingleScriptRoundTrip(tableName, headers, rows);
      SingleExpectedAt(tableName, headers, rows);
    }
  }

  /**
   * Single-row mode emits exactly one statement per row, in row order, and
   * statement k holds row k's values under the header columns.
   */
  lemma SingleModeStatements(headers: seq<string>, rows: seq<Row>, tableName: string)
    requires SafeIdentifiers(tableName, headers)
    requires Generate(headers, rows, tableName, false).Success?
    ensures ReadScript(Generate(headers, rows, tableName, false).value).Some?
    ensures |ReadScript(Generate(headers, rows, tableName, false).value).value| == |rows|
    ensures forall k :: 0 <= k < |rows| ==>
      ReadScript(Generate(headers, rows, tableName, false).value).value[k]
        == Insert(Trim(tableName), Map(headers, Trim), [NormalCells(headers, rows[k])], false)
  {
    GenerateRoundTrip(headers, rows, tableName, false);
    SingleExpectedAt(tableName, headers, rows);
  }

  /** Batch mode emits one statement whose k-th tuple holds row k's values. */
  lemma BatchModeStatement(headers: seq<string>, rows: seq<Row>, tableName: string)
    requires SafeIdentifiers(tableName, headers)
    requires Generate(headers, rows, tableName, true).Success?
    ensures ReadScript(Generate(headers, rows, tableName, true).value).Some?
    ensures |ReadScript(Generate(headers, rows, tableName, true).value).value| == 1
    ensures ReadScript(Generate(headers, rows, tableName, true).value).value[0].indented
    ensures |ReadScript(Generate(headers, rows, tableName, true).value).value[0].tuples| == |rows|
    ensures forall k :: 0 <= k < |rows| ==>
      |ReadScript(Generate(headers, rows, tableName, true).value).value[0].tuples[k]| == |headers|
    ensures forall k, i :: 0 <= k < |rows| && 0 <= i < |headers| ==>
      ReadScript(Generate(headers, rows, tableName, true).value).value[0].tuples[k][i]
        == Normalize(Lookup(rows[k], headers[i]))
  {
    GenerateRoundTrip(headers, rows, tableName, true);
    var stmts := ReadScript(Generate(headers, rows, tableName, true).value).value;
    assert stmts[0].tuples == NormalRows(headers, rows);
    forall k, i | 0 <= k < |rows| && 0 <= i < |headers|
      ensures stmts[0].tuples[k][i] == Normalize(Lookup(rows[k], headers[i]))
    {
      assert stmts[0].tuples[k] == NormalCells(headers, rows[k]);
    }
  }
}

=== FILE: strings.dfy ===
/**
 * The string primitives the page relies on: JavaScript's `String.prototype.trim`,
 * `endsWith`, and the decimal text `String(n)` gives an integer.
 */
module Strings {

  /**
   * The code points `trim` removes: ECMAScript's WhiteSpace (tab, vertical tab,
   * form feed, space, no-break space, byte order mark and the space separators
   * of Unicode category Zs) and LineTerminator (line feed, carriage return,
   * line and paragraph separator).
   */
  predicate IsSpace(c: char) {
    || c == '\t' || c == '\n' || c == '\U{000B}' || c == '\U{000C}' || c == '\r'
    || c == ' ' || c == '\U{00A0}' || c == '\U{1680}'
    || ('\U{2000}' <= c <= '\U{200A}')
    || c == '\U{2028}' || c == '\U{2029}' || c == '\U{202F}' || c == '\U{205F}'
    || c == '\U{3000}' || c == '\U{FEFF}'
  }

  /** The first position at or after `i` that is not white space, or `|s|`. */
  function SpanStart(s: string, i: nat): (k: nat)
    requires i <= |s|
    ensures i <= k <= |s|
    ensures forall m :: i <= m < k ==> IsSpace(s[m])
    ensures k == |s| || !IsSpace(s[k])
    decreases |s| - i
  {
    if i < |s| && IsSpace(s[i]) then SpanStart(s, i + 1) else i
  }

  /** The end of `s[lo..j]` once its trailing white space is dropped. */
  function SpanEnd(s: string, lo: nat, j: nat): (k: nat)
    requires lo <= j <= |s|
    ensures lo <= k <= j
    ensures forall m :: k <= m < j ==> IsSpace(s[m])
    ensures k == lo || !IsSpace(s[k - 1])
    decreases j
  {
    if j > lo && IsSpace(s[j - 1]) then SpanEnd(s, lo, j - 1) else j
  }

  /** Neither starts nor ends with white space. */
  predicate IsTrimmed(s: string) {
    s == [] || (!IsSpace(s[0]) && !IsSpace(s[|s| - 1]))
  }

  /** All of `s` is white space (vacuously so when `s` is empty). */
  predicate AllSpace(s: string) {
    forall i :: 0 <= i < |s| ==> IsSpace(s[i])
  }

  /** `s.trim()`: the slice of `s` between its leading and trailing white space. */
  function Trim(s: string): (r: string)
    ensures IsTrimmed(r)
    ensures exists i, j :: 0 <= i <= j <= |s| && r == s[i..j] && AllSpace(s[..i]) && AllSpace(s[j..])
    ensures r == [] <==> AllSpace(s)
  {
    var i := SpanStart(s, 0);
    var j := SpanEnd(s, i, |s|);
    TrimSlice(s, i, j);
    s[i..j]
  }

  /**
   * Cutting `s` at `i` and `j`, where everything before `i` and from `j` on
   * is white space and neither `s[i]` nor `s[j - 1]` is, leaves a trimmed
   * slice that is empty exactly when `s` is all white space.
   */
  lemma TrimSlice(s: string, i: nat, j: nat)
    requires i <= j <= |s|
    requires forall m :: 0 <= m < i ==> IsSpace(s[m])
    requires i == |s| || !IsSpace(s[i])
    requires forall m :: j <= m < |s| ==> IsSpace(s[m])
    requires j == i || !IsSpace(s[j - 1])
    ensures IsTrimmed(s[i..j])
    ensures AllSpace(s[..i]) && AllSpace(s[j..])
    ensures s[i..j] == [] <==> AllSpace(s)
  {
    assert AllSpace(s[j..]) by {
      forall k | 0 <= k < |s| - j ensures IsSpace(s[j..][k]) {
        assert s[j..][k] == s[j + k];
      }
    }
    if i < j {
      assert !IsSpace(s[i]);
    }
  }

  /** `!s.trim()`: the string holds nothing but white space. */
  predicate IsBlank(s: string) {
    Trim(s) == []
  }

  /** Trimming a string that has no white space at either end changes nothing. */
  lemma TrimOfTrimmed(s: string)
    requires IsTrimmed(s)
    ensures Trim(s) == s
  {
    var i, j :| 0 <= i <= j <= |s| && Trim(s) == s[i..j] && AllSpace(s[..i]) && AllSpace(s[j..]);
    if s != [] {
      if i > 0 {
        assert s[..i][0] == s[0];
      }
      if j < |s| {
        assert s[j..][|s| - 1 - j] == s[|s| - 1];
      }
    }
  }

  /** Trimming twice is trimming once. */
  lemma TrimIdempotent(s: string)
    ensures Trim(Trim(s)) == Trim(s)
  {
    TrimOfTrimmed(Trim(s));
  }

  /** `s.endsWith(suffix)`. */
  predicate EndsWith(s: string, suffix: string) {
    |suffix| <= |s| && s[|s| - |suffix|..] == suffix
  }

  predicate IsDigit(c: char) {
    '0' <= c <= '9'
  }

  predicate AllDigits(s: string) {
    forall i :: 0 <= i < |s| ==> IsDigit(s[i])
  }

  function DigitChar(d: nat): (c: char)
    requires d < 10
    ensures IsDigit(c)
  {
    ('0' as int + d) as char
  }

  function DigitValue(c: char): nat {
    if IsDigit(c) then c as int - '0' as int else 0
  }

  /** Decimal text of a natural number, most significant digit first, no leading zeros. */
  function NatText(n: nat): (r: string)
    ensures |r| > 0 && AllDigits(r)
    ensures r[0] == '0' <==> n == 0
    ensures n == 0 ==> r == "0"
    decreases n
  {
    if n < 10 then [DigitChar(n)] else NatText(n / 10) + [DigitChar(n % 10)]
  }

  /** `String(n)` for an integer: an optional minus sign followed by the digits. */
  function IntText(n: int): (r: string)
    ensures |r| > 0 && IsTrimmed(r)
    ensures r[0] == '-' <==> n < 0
    ensures n < 0 ==> r == "-" + NatText(-n)
    ensures n >= 0 ==> r == NatText(n)
  {
    if n < 0 then "-" + NatText(-n) else NatText(n)
  }

  /** Reads a run of decimal digits back as the number it denotes. */
  function ParseNat(s: string): nat
    decreases |s|
  {
    if |s| == 0 then 0 else 10 * ParseNat(s[..|s| - 1]) + DigitValue(s[|s| - 1])
  }

  /** Reading the decimal text of `n` gives back `n`. */
  lemma {:induction false} NatTextRoundTrip(n: nat)
    ensures ParseNat(NatText(n)) == n
    decreases n
  {
    if n >= 10 {
      var s := NatText(n);
      assert s[..|s| - 1] == NatText(n / 10);
      NatTextRoundTrip(n / 10);
    }
  }
}

=== FILE: uploader.dfy ===
/**
 * The upload widget's decision about a dropped or picked file list: ignore
 * it, hand its first file to the page, or reject it with an error toast.
 */
module Uploader {
  import opened Strings

  /** The two properties of a browser `File` the widget looks at. */
  datatype FileInfo = FileInfo(name: string, mimeType: string)

  /** What the widget does with a file list. */
  datatype Decision =
    | Ignored                  // nothing happens
    | Forwarded(file: FileInfo) // `onFileUpload(file)` is called
    | Rejected                 // the "Invalid File Type" toast is shown

  /** The MIME type browsers report for an Office Open XML workbook. */
  const XlsxMime := "application/vnd.openxmlformats-officedocument.spreadsheetml.sheet"

  /** The drop handler's test: the workbook MIME type, or a name ending in `.xlsx` (case-sensitive). */
  predicate IsWorkbook(f: FileInfo) {
    f.mimeType == XlsxMime || EndsWith(f.name, ".xlsx")
  }

  /** `handleDrop`: nothing while loading or for an empty list; otherwise the first file is tested. */
  function OnDrop(loading: bool, files: seq<FileInfo>): (d: Decision)
    ensures d.Forwarded? <==> !loading && |files| > 0 && IsWorkbook(files[0])
    ensures d.Rejected? <==> !loading && |files| > 0 && !IsWorkbook(files[0])
    ensures d.Ignored? <==> loading || |files| == 0
    ensures d.Forwarded? ==> d.file == files[0]
  {
    if loading || |files| == 0 then Ignored
    else if IsWorkbook(files[0]) then Forwarded(files[0])
    else Rejected
  }

  /** `handleFileChange`: the picker path forwards the first file without any type test. */
  function OnFileChange(loading: bool, files: seq<FileInfo>): (d: Decision)
    ensures !d.Rejected?
    ensures d.Forwarded? <==> !loading && |files| > 0
    ensures d.Forwarded? ==> d.file == files[0]
  {
    if loading || |files| == 0 then Ignored else Forwarded(files[0])
  }

  /**
   * The two paths agree except on non-workbook files, which the drop path
   * rejects and the picker forwards.
   */
  lemma PickerAcceptsMore(loading: bool, files: seq<FileInfo>)
    ensures OnDrop(loading, files).Forwarded? ==> OnFileChange(loading, files) == OnDrop(loading, files)
    ensures OnDrop(loading, files).Rejected? ==> OnFileChange(loading, files) == Forwarded(files[0])
    ensures OnDrop(loading, files).Ignored? <==> OnFileChange(loading, files).Ignored?
  {
  }

  /** Only the first file of a list matters; the rest are never looked at. */
  lemma OnlyFirstFileMatters(loading: bool, files: seq<FileInfo>, others: seq<FileInfo>)
    requires |files| > 0 && |others| > 0 && files[0] == others[0]
    ensures OnDrop(loading, files) == OnDrop(loading, others)
    ensures OnFileChange(loading, files) == OnFileChange(loading, others)
  {
  }

  /** The extension test is case-sensitive: `BOOK.XLSX` of another type is rejected when dropped. */
  lemma UpperCaseExtensionRejected(mimeType: string)
    requires mimeType != XlsxMime
    ensures OnDrop(false, [FileInfo("BOOK.XLSX", mimeType)]) == Rejected
  {
    assert "BOOK.XLSX"[4] != ".xlsx"[0] || "BOOK.XLSX"[5] != ".xlsx"[1];
  }

  /** A file named `*.xlsx` is forwarded whatever type the browser reports. */
  lemma ExtensionSuffices(stem: string, mimeType: string)
    ensures OnDrop(false, [FileInfo(stem + ".xlsx", mimeType)]) == Forwarded(FileInfo(stem + ".xlsx", mimeType))
  {
    var name := stem + ".xlsx";
    assert name[|name| - 5..] == ".xlsx";
  }

  /** A file of the workbook type is forwarded whatever its name. */
  lemma MimeTypeSuffices(name: string)
    ensures OnDrop(false, [FileInfo(name, XlsxMime)]) == Forwarded(FileInfo(name, XlsxMime))
  {
  }
}

=== FILE: wrappers.dfy ===
/** Failure-compatible wrappers used by the extraction, generation and reading steps. */
module Wrappers {

  /** An optional value; `None` is a failure for the `:-` operator. */
  datatype Option<+T> = None | Some(value: T) {
    predicate IsFailure() {
      None?
    }

    function PropagateFailure<U>(): Option<U>
      requires None?
    {
      None
    }

    function Extract(): T
      requires Some?
    {
      value
    }
  }

  /** Either a value or the reason there is none; `Failure` is a failure for `:-`. */
  datatype Result<+R, +E> = Success(value: R) | Failure(error: E) {
    predicate IsFailure() {
      Failure?
    }

    function PropagateFailure<U>(): Result<U, E>
      requires Failure?
    {
      Failure(error)
    }

    function Extract(): R
      requires Success?
    {
      value
    }
  }
}
